=== FILE: README.md ===
# A Dafny model of the Ferdi server's controllers

This project models the request handlers of a Franz/Ferdi-compatible REST
backend. It covers the user controller (signup, `me`, `updateMe` and the
account import from the upstream Franz server), the service controller, the
recipe controller and the workspace controller. The database is an immutable
`Store` of row sequences (users, services, workspaces, recipes). Each action is
a pure function from the store, the environment flags and the request to an
`Outcome`, which pairs the store the action leaves with its response.

Layout, one module per file:

- `js.dfy` (`Js`): the slice of JavaScript semantics the controllers rely on.
  - JSON values and truthiness.
  - `String(v)`, template literals and property keys.
  - Property reads.
  - Object spread as a right-biased map union, including the spread of arrays and strings by index.
  - `for … of` iteration and `x + 1`.
- `store.dfy` (`Store`): rows, owner-scoped queries, and the user insert with its two constraints:
  - the unique e-mail index;
  - `lastname` NOT NULL with default `""`.
- `fresh.dfy` (`FreshIds`): the generate-and-probe id loops. A supplied stream of candidates is read against a set of taken ids.
- `http.dfy` (`Http`): the environment flags, kept as raw optional strings and compared exactly as the code compares them. Also the validator's report, the response shapes and the `{data, status}` envelope.
- `services.dfy`, `workspaces.dfy`, `recipes.dfy`, `users.dfy`, `import.dfy`: the actions.

Every call into code outside the model is a parameter of the action:

- `auth` is the id of the authenticated user, or None when `auth.getUser()` fails.
- `violations` is what the validator reported.
- `candidates` is the stream of random UUIDs.
- `digest` is the SHA-256/base64 hash.
- `official`, `remote` and `upstream` are the parsed answers of the network calls.
- `drive` is the set of archive names in the recipe Drive.
- `filesUploaded` and `IconUpload` describe the multipart form files.

Three outcomes stand for things the code does without answering normally:

- `Fault`: an uncaught exception.
- `NoResponse`: a request that never completes.
- `Diverges`: an id loop that is still running when the candidate stream ends.

## Model

| member | source | states |
|---|---|---|
| Js.Overlay | app/Controllers/Http/UserController.ts:161-164 | `{...low, ...high}`: the key set is the union; a key of `high` takes its value, and any other key keeps its value from `low` |
| Js.Spread | app/Controllers/Http/UserController.ts:151 | `{...v}` of an object is its fields; a falsy non-array value contributes nothing |
| Js.SpreadOfSpread | app/Controllers/Http/UserController.ts:329 | storing the spread of a value in place of the value changes nothing that a later spread can see |
| Js.PropReadsSpread | app/Controllers/Http/ServiceController.ts:85-95 | reading a non-numeric key such as `settings.iconId` of a non-null value finds what the spread of that value holds under the key, so a stored spread answers every later property read as the original value would |
| Store.InsertUser | app/Controllers/Http/UserController.ts:65-76 | the insert fails exactly when the e-mail is already taken or lastname is an explicit null; otherwise it appends one user with the next id, the given columns and null settings, and changes nothing else |
| Store.LastnameColumn | database/migrations/1612629845398_users_update_schema.ts:6 | an omitted lastname becomes `""`; an explicit null is rejected |
| Store.FindUser | app/Controllers/Http/UserController.ts:135-136 | the authenticated user is found exactly when a row carries that id |
| Store.KeepCounts | app/Controllers/Http/ServiceController.ts:290 | a filtered delete keeps each surviving row exactly as often as it occurred and removes every occurrence of a matching row |
| Store.KeepConcat | app/Controllers/Http/WorkspaceController.ts:127 | filtering distributes over concatenation, so the surviving rows keep their relative order |
| FreshIds.Draw | app/Controllers/Http/ServiceController.ts:35-38 | the drawn id is the first candidate not taken, and every earlier candidate was taken; nothing is drawn exactly when every candidate is taken |
| FreshIds.DrawRetriesPastTaken | app/Controllers/Http/WorkspaceController.ts:31-35 | the loop skips candidates that are already taken |
| FreshIds.DrawFromFreshSupply | app/Controllers/Http/UserController.ts:315-319 | when the next candidates are distinct and untaken, a draw takes the first one without a retry and leaves such a supply for one draw fewer |
| FreshIds.DrawnUnread | app/Controllers/Http/UserController.ts:315-319 | a draw only consumes the head of the candidate stream, so whatever is left unread after it is left unread of the whole stream |
| FreshIds.DrawnStreamUsed | app/Controllers/Http/UserController.ts:315-319 | the candidates a draw skips were taken, so when the ones after the draw are all used, every candidate is |
| Http.FederationReadings | app/Controllers/Http/RecipeController.ts:140 | the import's `== "false"` reading and the recipes' `=== "true"` reading agree only on "true" and "false"; an unset flag federates the import but not the recipes |
| Services.Render | app/Controllers/Http/ServiceController.ts:79-100 | a listed service layers defaults, then stored settings, then the fixed fields: its keys are exactly the default keys, the stored keys and the fixed keys; `id`, `name`, `recipeId`, `userId` and `iconUrl` always come from the row, settings win over defaults, and defaults fill the remaining keys |
| Services.ListIconUrl | app/Controllers/Http/ServiceController.ts:95 | `iconUrl` is null exactly when `settings.iconId` is falsy; otherwise it is APP_URL + "/v1/icon/" + iconId |
| Services.Create | app/Controllers/Http/ServiceController.ts:12-67 | auth failure and validation failure leave the store unchanged. Otherwise one row is appended under a candidate id that no service holds, with the request's name and recipe as its columns and the whole request as settings. The answer, tagged "created", has exactly the default keys and the request keys: every request field, and the defaults for the rest. The loop diverges exactly when every candidate is taken |
| Services.List | app/Controllers/Http/ServiceController.ts:70-104 | the caller's services, in store order, each rendered |
| Services.CreateThenList | app/Controllers/Http/ServiceController.ts:40-100 | a created service is listed last under its generated id and the requested recipe, showing every request field that is not a fixed field |
| Services.IconSettings | app/Controllers/Http/ServiceController.ts:142-149 | an icon upload replaces `iconId`; `customIconVersion` becomes old + 1 when the old value is truthy and 1 otherwise; every other key is kept, and with no prior settings the two icon keys are the only keys |
| Services.IconVersionAfterTwoUploads | app/Controllers/Http/ServiceController.ts:146-147 | two uploads raise a positive version n to n + 2, and an absent version to 2 |
| Services.IconRows | app/Controllers/Http/ServiceController.ts:152-158 | only the caller's rows with this id change: they take the first such row's name and the new icon settings |
| Services.EditAnswer | app/Controllers/Http/ServiceController.ts:160-169 | the edit answer holds exactly `id`, the row's `name` when there is a row, the settings, `iconUrl` and `userId`; a setting overrides `id` or `name`, and `iconUrl` and `userId` override every setting |
| Services.EditIcon | app/Controllers/Http/ServiceController.ts:113-170 | a failed move answers 500 with the upload error and changes nothing; otherwise the rows are updated and the answer is 200, tagged "updated", with exactly the first owned row's id and name, the icon settings, an `iconUrl` linking the new file, and the caller's `userId` |
| Services.MergedSettings | app/Controllers/Http/ServiceController.ts:181-186 | the stored settings of the caller's first row with this id, overlaid by the request; only the request when there is no such row |
| Services.MergedRows | app/Controllers/Http/ServiceController.ts:189-195 | only the caller's rows with this id change: they take the request's name (an absent name is not written) and the merged settings |
| Services.EditSettings | app/Controllers/Http/ServiceController.ts:172-212 | the store takes the merged rows; the answer is 200, tagged "updated", with exactly the re-read row's id and name, the merged settings, the caller's `userId`, and an `iconUrl` always built from `settings.iconId` ("undefined" when it is absent) |
| Services.Edit | app/Controllers/Http/ServiceController.ts:106-113 | auth failure changes nothing; an `icon` file selects the icon branch, and its absence selects the merge branch |
| Services.EditThenList | app/Controllers/Http/ServiceController.ts:189-208 | after a merge edit, every listed service with this id shows the requested name and every requested field that is not a fixed field |
| Services.MergedThenListed | app/Controllers/Http/ServiceController.ts:189-198 | listing the merged rows shows, for every service with this id, the requested name and every requested field that is not a fixed field |
| Services.Reorder | app/Controllers/Http/ServiceController.ts:228-282 | each service named in the request gets `order` set to the requested value, with its other settings kept; other rows and every other table and counter are unchanged; the answer is the caller's rendered services |
| Services.Reordered | app/Controllers/Http/ServiceController.ts:233-251 | a caller's row named in the request takes the settings of the caller's first row with that id, with `order` set to the requested value and every other key kept; any other row is unchanged; id, owner, name and recipe never change |
| Services.ReorderIdempotent | app/Controllers/Http/ServiceController.ts:231-252 | reordering twice with the same request is the same as reordering once |
| Services.Delete | app/Controllers/Http/ServiceController.ts:288-296 | removes every copy of the caller's rows with this id; every other row stays, as often as before and in its order; nothing outside the services table changes |
| Services.DeleteUndoesCreate | app/Controllers/Http/ServiceController.ts:288-290 | deleting the service that create just made restores the store |
| Workspaces.Create | app/Controllers/Http/WorkspaceController.ts:8-55 | a fresh workspace id no workspace holds; `order` is the number of the caller's workspaces before the insert; services are `[]` and data is the whole request; the answer is `{userId, name, id, order, workspaces: []}` |
| Workspaces.Edited | app/Controllers/Http/WorkspaceController.ts:81-87 | edit replaces name and services wholesale when the request has them, and keeps id, owner, order and data |
| Workspaces.EditedRows | app/Controllers/Http/WorkspaceController.ts:81-83 | only the caller's rows with this id are edited |
| Workspaces.Edit | app/Controllers/Http/WorkspaceController.ts:57-102 | auth and validation failures change nothing; otherwise the store takes the edited rows and nothing else changes; the answer is 200 with exactly `userId`, the request's services and name when it has them, and the re-read row's id and order when such a row exists |
| Workspaces.EditAnswer | app/Controllers/Http/WorkspaceController.ts:95-101 | the edit answer holds exactly `userId`, the request's services and name when it has them, and the re-read row's id and order when there is one, each with its value |
| Workspaces.EditThenList | app/Controllers/Http/WorkspaceController.ts:81-157 | after edit, every listed workspace with this id shows the requested name and services |
| Workspaces.EditedThenListed | app/Controllers/Http/WorkspaceController.ts:81-87 | listing the edited rows shows, for every workspace with this id, the requested name and services |
| Workspaces.Delete | app/Controllers/Http/WorkspaceController.ts:104-132 | removes every copy of the caller's rows with this id; every other row stays, as often as before and in its order; nothing outside the workspaces table changes |
| Workspaces.List | app/Controllers/Http/WorkspaceController.ts:135-161 | the caller's workspaces in store order, each as `{id, name, order, services, userId}` |
| Workspaces.CreateThenList | app/Controllers/Http/WorkspaceController.ts:37-54 | a created workspace is listed last, with its position as its order and no services |
| Workspaces.AppendedThenListed | app/Controllers/Http/WorkspaceController.ts:37-54 | a row appended for the caller with the caller's workspace count as its order and no services is listed last, with its position as its order |
| Workspaces.DeleteUndoesCreate | app/Controllers/Http/WorkspaceController.ts:127 | deleting the workspace that create just made restores the store |
| Recipes.RenderRecipe | app/Controllers/Http/RecipeController.ts:36-40 | a custom recipe is `{id: recipeId, name}` overlaid by its data blob |
| Recipes.List | app/Controllers/Http/RecipeController.ts:31-45 | the official recipes, then every custom recipe rendered; a failed or non-iterable official answer throws |
| Recipes.RecipeData | app/Controllers/Http/RecipeController.ts:98-105 | the stored blob holds author (when given), `featured: false`, `version: "1.0.0"` and `icons: {svg}` |
| Recipes.Create | app/Controllers/Http/RecipeController.ts:48-109 | the checks run in order: creation disabled, validation, missing id, an id with "." or "/". A request passing them without the `files` upload throws before anything is saved. The store changes only when every check passes and the files were uploaded, and then gains exactly the new recipe |
| Recipes.CreateThenList | app/Controllers/Http/RecipeController.ts:95-106 | a created recipe is listed last with its id, author, version and featured flag |
| Recipes.Search | app/Controllers/Http/RecipeController.ts:112-161 | the sentinel needle returns every local recipe; any other needle returns the local name matches, followed by remote results only when the flag is exactly "true"; with federation on, a failed upstream call or an answer that cannot be iterated is a fault, a falsy answer gives the local matches alone, and an iterable one gives the local matches followed by its items |
| Recipes.CustomNeedleIsLocal | app/Controllers/Http/RecipeController.ts:131-137 | the sentinel's answer does not depend on the flag, the upstream answer or the name filter |
| Recipes.SearchLocalThenRemote | app/Controllers/Http/RecipeController.ts:150-157 | with federation on, local matches come before the upstream results, both in their order |
| Recipes.Download | app/Controllers/Http/RecipeController.ts:164-197 | the chain: an unsafe name is rejected, then a local bundle is served, then federation redirects upstream, then 400 `recipe-not-found` |
| Recipes.UnsafeIdNeverReachesDrive | app/Controllers/Http/RecipeController.ts:181-183 | an id containing "." or "/" gets the same answer whatever the Drive or the flags, and is never served from the Drive |
| Users.Profile | app/Controllers/Http/UserController.ts:138-150 | the fixed profile: its exact key set, the user's e-mail, first name and last name, and the constant id and locale |
| Users.Rendered | app/Controllers/Http/UserController.ts:138-152 | stored settings override the fixed profile fields on every shared key |
| Users.Me | app/Controllers/Http/UserController.ts:128-153 | the profile of the authenticated user overlaid by the spread of its settings; a failed authentication throws |
| Users.NullSettingsRenderProfile | app/Controllers/Http/UserController.ts:151 | null or otherwise falsy settings contribute nothing |
| Users.NewSettings | app/Controllers/Http/UserController.ts:156-164 | the new settings are the stored settings overlaid by the request: request values win on shared keys, and keys only in storage are kept |
| Users.SavedSettings | app/Controllers/Http/UserController.ts:166-167 | only the authenticated user's row takes the new settings |
| Users.UpdateMe | app/Controllers/Http/UserController.ts:155-187 | saves the merged settings and answers with the profile rendered from them, in the `data-updated` envelope |
| Users.MeAfterUpdateMe | app/Controllers/Http/UserController.ts:169-184 | `me` after `updateMe` shows exactly the data `updateMe` answered with |
| Users.UpdateMeIdempotent | app/Controllers/Http/UserController.ts:161-167 | sending the same update twice leaves the same store and answer as sending it once |
| Users.Signup | app/Controllers/Http/UserController.ts:36-85 | registration disabled and validation failure change nothing. Otherwise the store changes exactly when the insert succeeds, and then it is the insert's result: every existing row and table kept, one user appended under the next id with null settings and the request's e-mail, password, first name and last name. A failed insert answers "E-Mail Address already in use" |
| Users.SignupTwiceRefused | app/Controllers/Http/UserController.ts:65-76 | a second signup with the same address is refused and changes nothing |
| AccountImport.ErrorTextAppend | app/Controllers/Http/UserController.ts:209-216 | each violation appends its own line to the report |
| AccountImport.BuildErrorText | app/Controllers/Http/UserController.ts:208-217 | the report is the header followed by one line per violation, in order: `required` asks for the field, `unique` names the duplicate e-mail, anything else is the raw message |
| AccountImport.LinesAppend | app/Controllers/Http/UserController.ts:209-217 | the lines of concatenated violation lists are the concatenated lines |
| AccountImport.GrowsTransitive | app/Controllers/Http/UserController.ts:296-366 | steps that only add rows compose into a run that only adds rows |
| AccountImport.ImportServices | app/Controllers/Http/UserController.ts:312-333 | each remote service becomes a row for the new user, in order, under an id held by no existing service and by no other imported row; its settings are the whole remote object; a null service stops the loop with no row for it; the loop retries past taken ids and gets stuck only when every candidate is held by an existing service or an imported row; a complete run leaves the translation built from the rows |
| AccountImport.ImportServicesCompletes | app/Controllers/Http/UserController.ts:312-333 | with no null service and a fresh id for each, the services loop runs to the end |
| AccountImport.ServicesCopiedPrepend | app/Controllers/Http/UserController.ts:315-330 | a fresh row in front of correctly copied rows is still a correct copy |
| AccountImport.ServiceThen | app/Controllers/Http/UserController.ts:315-333 | one turn of the services loop puts the row for the first remote service, under the drawn id, in front of the rest's rows, and keeps every loop guarantee: the copies stay correct, a stop is at a null service, a stuck loop has used every candidate, and a complete run's translation is built from all the rows |
| AccountImport.ImportServicesUnread | app/Controllers/Http/UserController.ts:315-333 | a complete services loop hands back the unread tail of the candidate stream |
| AccountImport.TranslatedLast | app/Controllers/Http/UserController.ts:332 | the translation maps a remote service id to the local id of the last service carrying it |
| AccountImport.TranslatedKeeps | app/Controllers/Http/UserController.ts:332 | a key no remote service carries keeps its prior translation |
| AccountImport.TranslatedKeys | app/Controllers/Http/UserController.ts:332 | every key the translation gains is the remote id of some service |
| AccountImport.Translate | app/Controllers/Http/UserController.ts:352 | the member list is mapped element-wise: same length and order, with an untranslated id becoming null |
| AccountImport.MemberTranslated | app/Controllers/Http/UserController.ts:352 | a member naming a remote service becomes the new local id of that service |
| AccountImport.MemberUntranslated | app/Controllers/Http/UserController.ts:352 | a member naming no remote service becomes null |
| AccountImport.ImportWorkspaces | app/Controllers/Http/UserController.ts:340-363 | each remote workspace becomes a row, in order, under a fresh id; name and order are copied, services are translated, and data is `{}`; a null workspace or one without a member array stops the loop with no row for it; the loop retries past taken ids and gets stuck only when every candidate is held by an existing workspace or an imported row |
| AccountImport.ImportWorkspacesCompletes | app/Controllers/Http/UserController.ts:340-363 | with a member array in every workspace and a fresh id for each, the workspaces loop runs to the end |
| AccountImport.WorkspacesCopiedPrepend | app/Controllers/Http/UserController.ts:343-362 | a fresh row in front of correctly copied rows is still a correct copy |
| AccountImport.WorkspaceThen | app/Controllers/Http/UserController.ts:343-362 | one turn of the workspaces loop puts the row for the first remote workspace, under the drawn id, in front of the rest's rows, and keeps every loop guarantee: the copies stay correct, a stop is at a workspace without a member array, and a stuck loop has used every candidate |
| AccountImport.ImportWorkspacesUnread | app/Controllers/Http/UserController.ts:343-362 | a complete workspaces loop hands back the unread tail of the candidate stream |
| AccountImport.FinishImport | app/Controllers/Http/UserController.ts:339-371 | the workspace step only appends its rows. It answers with the success text after a complete run, with the workspace error after a throw, and never when the fetch hangs |
| AccountImport.ImportData | app/Controllers/Http/UserController.ts:309-371 | the service rows stay in the store whatever happens later. A failure in the services step writes no workspace. A complete services step hands its translation and the unread candidates to the workspace step |
| AccountImport.ImportedWorkspacesTranslated | app/Controllers/Http/UserController.ts:332-362 | after a complete services step, each added workspace copies the remote workspace at its position, with its members rewritten through the translation the services built |
| AccountImport.ImportFederated | app/Controllers/Http/UserController.ts:246-371 | a thrown login call answers 401 with the error it threw, and a null login body with an empty error; a message other than exactly "Successfully logged in" and a null or otherwise falsy profile each answer 401 before any row is written. A failed user insert answers 401 and writes nothing. Once the user exists, a failure in a later step keeps the user |
| AccountImport.Import | app/Controllers/Http/UserController.ts:189-372 | registration disabled and validation failure change nothing. At most one user is added, with the hashed password. With federation off, no service or workspace is written. The store only grows: nothing is rolled back |
| AccountImport.FederationOffCreatesUser | app/Controllers/Http/UserController.ts:229-240 | with the flag exactly "false", the import creates exactly one user named "Franz Franz" with the hashed password, and nothing else |
| AccountImport.ImportExample | app/Controllers/Http/UserController.ts:296-371 | a whole import into an empty server: one user from the profile, the service stored under the first fresh id, and the workspace under the next id, listing the service by its new id |

## Left out

- Network: the upstream login, `me`, services and workspace calls, and the official recipe list and search, are parameters holding their parsed answers. A failed login call is its thrown error, given by the error's own enumerable properties; which properties a `fetch` error carries is not modelled. A `franzRequest` failure is modelled as a request that never completes, because the helper's promise never settles on error. The code's `catch` around the profile call therefore never sees an error.
- Login: `UserController.login` is not part of this model, which covers the user actions signup, `me`, `updateMe` and import. It reads the Basic credentials from the Authorization header, looks the user up by e-mail and answers one of three 401s; only the password check itself is delegated to `auth.attempt`.
- Hashing: SHA-256 with base64 is the uninterpreted `digest` parameter. `btoa` of the login credentials only feeds the network call.
- Random UUIDs are the `candidates` stream. When the stream runs out, the source would keep drawing forever, so the model answers `Diverges`. The icon file name (two UUIDs plus the extension, probed against the uploads directory) is a field of `IconUpload`.
- JSON: parsing and serialising are not modelled. A settings or data column is held as the value it parses to, and the string-or-object tolerance of the readers is folded into that. The import stores the spread of each remote service, which no later reader can tell apart from the stored text: a later spread sees the same fields (`Js.SpreadOfSpread`), and a later property read of a non-index key sees the same value (`Js.PropReadsSpread`). Undefined array elements serialise as null.
- `LIKE` matching is the `matches` predicate. Its wildcards and case folding are not modelled.
- Filesystem and Drive: the upload directory, `moveAll`, the un-awaited `compress` and the archive bytes are not modelled. A missing `files` upload in recipe creation reads as a thrown exception. The `ServiceController.icon` file download is a filesystem read and is not modelled.
- `ServiceController.update` answers a constant empty array and is not modelled.
- Auth tokens: generation is the `token` parameter of signup, and verification is the `auth` parameter.
- View rendering: the import's validation view is the `View` response carrying its heading and text.
- Validation: the validator's rules (e-mail format, URL, unique id) are abstracted into the `violations` list it reports.
- StaticController.ts, configuration and bootstrap (config/, start/, server.ts) and the model classes are not part of this model. Of the migrations, only the lastname constraint is modelled. Its 80-character length is not.
- Database failures other than the user insert's constraints (a failing service or workspace insert) are not modelled.
- Concurrency: the model is sequential. The check-then-insert race of the id loops and of the unique e-mail is not modelled.
- Numbers are unbounded integers. Floating point is not modelled.
- Objects are maps, so property order in answers is not modelled.
- Property keys that hit `Object.prototype` (a remote service id of "__proto__" or "toString") are treated as plain keys.
- Users.Me: when authentication fails, the code sends the token error but does not return, then throws reading the missing user. The model answers `Fault` and leaves out the first send.
- Users.UpdateMe: this route calls no `auth.getUser()`. A missing authenticated user throws, modelled as `Fault`.
- AccountImport.Import: a password that is not a string makes the hash call throw (`Fault`). The validator requires a string, so this only happens without validation.
- Services.Reorder and Services.Delete take the caller's id directly. These routes do not call `auth.getUser()`, and with no user they throw before touching the store.
- AccountImport.Import: the validation failure is answered with the report view on the reading that `error.messages()` at UserController.ts:209 is a call returning the violation list. Every other handler of the same validation exception reads `error.messages` as a property (UserController.ts:57, RecipeController.ts:67, WorkspaceController.ts:25). If it is a property there too, the call throws inside the `catch` and the import answers with a server error instead of the view. The validator library is not part of this model, so the model keeps the view.
- Js.Spread and Js.Iterate index a string by Unicode scalar values (Dafny characters). JavaScript indexes UTF-16 code units, so a string with characters outside the Basic Multilingual Plane spreads and iterates differently.

=== FILE: fresh.dfy ===
/**
 Generate-and-probe identifier generation: draw a random candidate, ask the
 store whether it is taken, and draw again while it is. The random source is a
 supplied stream of candidates and the store a set of taken ids. The source
 loop has no bound; here running out of candidates yields None.
 */
module FreshIds {
  import opened Js

  /** A drawn identifier and the part of the candidate stream left unread. */
  datatype Drawn = Drawn(id: string, rest: seq<string>)

  /** The first candidate not in `taken`, and the candidates after it. */
  function Draw(candidates: seq<string>, taken: set<string>): (r: Option<Drawn>)
    ensures r.Some? ==>
      var k := |candidates| - |r.value.rest| - 1;
      && 0 <= k < |candidates|
      && candidates[k] == r.value.id
      && r.value.id !in taken
      && candidates[k + 1..] == r.value.rest
      && forall j :: 0 <= j < k ==> candidates[j] in taken
    ensures r.None? <==> forall j :: 0 <= j < |candidates| ==> candidates[j] in taken
  {
    if candidates == [] then None
    else if candidates[0] !in taken then Some(Drawn(candidates[0], candidates[1..]))
    else Draw(candidates[1..], taken)
  }

  /** If every candidate after a draw ends up used, by the taken set, the
      drawn id or `used`, then so does every candidate before it: the ones
      the draw skipped were taken. */
  lemma DrawnStreamUsed(candidates: seq<string>, taken: set<string>, used: set<string>)
    requires Draw(candidates, taken).Some?
    requires var d := Draw(candidates, taken).value;
      forall j :: 0 <= j < |d.rest| ==> d.rest[j] in taken + {d.id} + used
    ensures forall j :: 0 <= j < |candidates| ==> candidates[j] in taken + {Draw(candidates, taken).value.id} + used
  {
    var d := Draw(candidates, taken).value;
    var k := |candidates| - |d.rest| - 1;
    forall j | k < j < |candidates|
      ensures candidates[j] in taken + {d.id} + used
    {
      assert candidates[j] == d.rest[j - k - 1];
    }
  }

  /** `tail` is what is left of `stream` after some of its head was read. */
  predicate Unread(tail: seq<string>, stream: seq<string>) {
    |tail| <= |stream| && tail == stream[|stream| - |tail|..]
  }

  /** What is left unread after a draw is also left unread of the stream
      the draw read from: draws only ever consume the head. */
  lemma DrawnUnread(candidates: seq<string>, taken: set<string>, tail: seq<string>)
    requires Draw(candidates, taken).Some? && Unread(tail, Draw(candidates, taken).value.rest)
    ensures Unread(tail, candidates)
  {
    var rest := Draw(candidates, taken).value.rest;
    var k := |candidates| - |rest| - 1;
    assert tail == candidates[k + 1..][|rest| - |tail|..];
  }

  /** The next `n` candidates are distinct and none of them is taken, so the
      next `n` draws succeed without a retry. */
  predicate FreshSupply(candidates: seq<string>, taken: set<string>, n: nat) {
    && n <= |candidates|
    && (forall j :: 0 <= j < |candidates| ==> candidates[j] !in taken)
    && (forall i, j :: 0 <= i < j < |candidates| ==> candidates[i] != candidates[j])
  }

  /** A draw from a fresh supply takes its first candidate and leaves a fresh
      supply for one draw fewer, with that candidate now taken. */
  lemma DrawFromFreshSupply(candidates: seq<string>, taken: set<string>, n: nat)
    requires FreshSupply(candidates, taken, n) && n > 0
    ensures Draw(candidates, taken) == Some(Drawn(candidates[0], candidates[1..]))
    ensures FreshSupply(candidates[1..], taken + {candidates[0]}, n - 1)
  {
    var rest := candidates[1..];
    forall j | 0 <= j < |rest|
      ensures rest[j] !in taken + {candidates[0]}
    {
      assert rest[j] == candidates[j + 1];
    }
    forall i, j | 0 <= i < j < |rest|
      ensures rest[i] != rest[j]
    {
      assert rest[i] == candidates[i + 1] && rest[j] == candidates[j + 1];
    }
  }

  /** With the first two candidates taken, the third is drawn. */
  lemma DrawRetriesPastTaken(a: string, b: string, c: string)
    requires c != a && c != b
    ensures Draw([a, b, c], {a, b}) == Some(Drawn(c, []))
  {
    assert [a, b, c][1..] == [b, c];
    assert [b, c][1..] == [c];
    assert Draw([c], {a, b}) == Some(Drawn(c, []));
    assert Draw([b, c], {a, b}) == Draw([c], {a, b});
  }
}

=== FILE: http.dfy ===
/**
 What every controller action shares: the environment flags it reads, the
 validator's report, and the response it sends together with the store it
 leaves behind.
 */
module Http {
  import opened Js
  import opened Store

  /** The environment variables the controllers read, as raw strings. */
  datatype Env = Env(
    appUrl: Option<string>,
    connectWithFranz: Option<string>,
    isRegistrationEnabled: Option<string>,
    isCreationEnabled: Option<string>)

  /** `Env.get("IS_REGISTRATION_ENABLED") == "false"` */
  predicate RegistrationDisabled(env: Env) {
    env.isRegistrationEnabled == Some("false")
  }

  /** The import flow federates unless `Env.get("CONNECT_WITH_FRANZ") == "false"`. */
  predicate ImportFederates(env: Env) {
    !(env.connectWithFranz == Some("false"))
  }

  /** Recipe search and download federate only when `Env.get("CONNECT_WITH_FRANZ") === "true"`. */
  predicate RecipesFederate(env: Env) {
    env.connectWithFranz == Some("true")
  }

  /** `Env.get("IS_CREATION_ENABLED") === "false"` */
  predicate CreationDisabled(env: Env) {
    env.isCreationEnabled == Some("false")
  }

  /** The two readings of CONNECT_WITH_FRANZ agree on "true" and "false" but
      not elsewhere: an unset flag (or any other value) federates the import
      and does not federate recipes. */
  lemma FederationReadings(env: Env)
    ensures RecipesFederate(env) ==> ImportFederates(env)
    ensures env.connectWithFranz == Some("false") ==> !ImportFederates(env) && !RecipesFederate(env)
    ensures env.connectWithFranz != Some("true") && env.connectWithFranz != Some("false") ==>
      ImportFederates(env) && !RecipesFederate(env)
  {
  }

  /** One entry of the validator's report, in the shape the controllers read. */
  datatype Violation = Violation(field: string, validation: string, message: string)

  /** What the action sends back. */
  datatype Response =
    /** `response.status(status).send(body)`; a text body is a `Str`. */
    | Send(status: nat, body: Value)
    /** A text response whose tail is an exception rendered with `${e}`. */
    | SendError(status: nat, prefix: string)
    /** `response.badRequest(error.messages)` */
    | BadRequest(messages: seq<Violation>)
    /** `view.render("others.message", {heading, text})` */
    | View(heading: string, text: string)
    /** `response.redirect(url)` */
    | Redirect(url: string)
    /** The bytes of a file in the recipe Drive. */
    | DriveFile(path: string)
    /** An uncaught exception: the framework answers with a server error. */
    | Fault
    /** The request never completes: an awaited promise never settles. */
    | NoResponse
    /** The generate-and-probe loop is still running when the candidate stream ends. */
    | Diverges

  /** The store after the action, and its response. */
  datatype Outcome = Outcome(store: Store, response: Response)

  /** The plain-text answer of a failed `auth.getUser()`, sent with status 200. */
  const InvalidToken: Response := Send(200, Str("Missing or invalid api token"))

  /** `{data, status: [status]}`, the envelope of create and update answers. */
  function Envelope(data: Object, status: string): Value {
    Obj(map["data" := Obj(data), "status" := Arr([Str(status)])])
  }

  /** The `data` object of an envelope response, or the empty object. */
  function Payload(r: Response): Object {
    if r.Send? && r.body.Obj? && "data" in r.body.fields && r.body.fields["data"].Obj?
    then r.body.fields["data"].fields
    else map[]
  }

  /** The payload of an envelope is the data it was built from. */
  lemma PayloadOfEnvelope(status: nat, data: Object, tag: string)
    ensures Payload(Send(status, Envelope(data, tag))) == data
  {
  }
}

=== FILE: import.dfy ===
/**
 The account import: a strictly sequential series of steps with early exits.
 It validates the request, hashes the password, logs in upstream, fetches the
 profile, creates the local user, then copies the remote services (recording
 which local id each remote id became) and the remote workspaces (rewriting
 their member lists through that translation). Nothing is rolled back when a
 later step fails.
 */
module AccountImport {
  import opened Js
  import opened Store
  import opened Http
  import opened FreshIds
  import Users

  // ---------------------------------------------------------------------------
  // The validation report

  const Header: string := "There was an error while trying to import your account:\n"

  /** The line one violation contributes to the report. */
  function Line(v: Violation): string {
    if v.validation == "required" then "- Please make sure to supply your " + v.field + "\n"
    else if v.validation == "unique" then "- There is already a user with this email.\n"
    else v.message + "\n"
  }

  /** The lines of a list of violations, in order. */
  function Lines(vs: seq<Violation>): string {
    if vs == [] then "" else Line(vs[0]) + Lines(vs[1..])
  }

  /** The report is a homomorphism: the lines of a concatenation are the
      concatenated lines. */
  lemma {:induction false} LinesAppend(a: seq<Violation>, b: seq<Violation>)
    ensures Lines(a + b) == Lines(a) + Lines(b)
  {
    if a == [] {
      assert a + b == b;
    } else {
      assert (a + b)[0] == a[0];
      assert (a + b)[1..] == a[1..] + b;
      LinesAppend(a[1..], b);
    }
  }

  /** The text shown when validation fails. */
  function ErrorText(vs: seq<Violation>): string {
    Header + Lines(vs)
  }

  /** Each violation adds its line at the end of the report. */
  lemma ErrorTextAppend(vs: seq<Violation>, v: Violation)
    ensures ErrorText(vs + [v]) == ErrorText(vs) + Line(v)
  {
    var lines, line := Lines(vs), Line(v);
    LinesAppend(vs, [v]);
    assert [v][1..] == [];
    assert Lines([v]) == line;
    assert Header + (lines + line) == (Header + lines) + line;
  }

  /** The loop that builds the report, one `+=` per violation. */
  method BuildErrorText(vs: seq<Violation>) returns (text: string)
    ensures text == ErrorText(vs)
  {
    text := Header;
    var i := 0;
    while i < |vs|
      invariant 0 <= i <= |vs|
      invariant text == ErrorText(vs[..i])
    {
      ErrorTextAppend(vs[..i], vs[i]);
      assert vs[..i + 1] == vs[..i] + [vs[i]];
      text := text + Line(vs[i]);
      i := i + 1;
    }
    assert vs[..|vs|] == vs;
  }

  // ---------------------------------------------------------------------------
  // The upstream account service

  /** What awaiting `franzRequest` yields: the parsed answer, or nothing ever,
      since a failed fetch rejects a promise the helper never settles. */
  datatype Remote = Answer(value: Value) | Hang

  /** How the login request ends: with its parsed body, or with the error
      that `fetch` or `json()` threw, given by the error's own enumerable
      properties (what `JSON.stringify` shows of it). */
  datatype LoginCall = Parsed(body: Value) | Thrown(error: Object)

  /** The upstream answers, in the order the import asks for them. */
  datatype Upstream = Upstream(login: LoginCall, profile: Remote, services: Remote, workspaces: Remote)

  const LoginAccepted: string := "Successfully logged in"

  /** The login answer carries exactly the success message. */
  predicate LoggedIn(login: LoginCall) {
    login.Parsed? && !login.body.Null? && Prop(login.body, "message") == Some(Str(LoginAccepted))
  }

  // ---------------------------------------------------------------------------
  // Copying services and workspaces

  /** Where a copy loop stopped: after the last element (with the translation
      and the unread candidates), at an exception, or stuck drawing ids. Each
      carries the rows it created, which stay in the store in every case. */
  datatype Step<T> =
    | Done(rows: seq<T>, translation: map<string, string>, rest: seq<string>)
    | Failed(rows: seq<T>)
    | Stuck(rows: seq<T>)

  /** `after` only adds rows to `before`: nothing is updated or deleted. */
  predicate Grows(before: Store, after: Store) {
    && |before.users| <= |after.users| && after.users[..|before.users|] == before.users
    && |before.services| <= |after.services| && after.services[..|before.services|] == before.services
    && |before.workspaces| <= |after.workspaces| && after.workspaces[..|before.workspaces|] == before.workspaces
    && after.recipes == before.recipes
  }

  lemma GrowsTransitive(a: Store, b: Store, c: Store)
    requires Grows(a, b) && Grows(b, c)
    ensures Grows(a, c)
  {
    assert c.users[..|a.users|] == c.users[..|b.users|][..|a.users|];
    assert c.services[..|a.services|] == c.services[..|b.services|][..|a.services|];
    assert c.workspaces[..|a.workspaces|] == c.workspaces[..|b.workspaces|][..|a.workspaces|];
  }

  /** The translation key of a remote service: `String(service.id)`. */
  function RemoteKey(service: Value): string {
    PropertyKey(Prop(service, "id"))
  }

  /** The service row imported from a remote service object. Its settings are
      the whole remote object. */
  function ImportedService(userId: nat, id: string, service: Value): Service {
    Service(userId, id, OrNull(Prop(service, "name")), OrNull(Prop(service, "recipeId")), Spread(service))
  }

  /** `rows` are copies of the first remote services, in order, for this
      user, under distinct ids none of which was taken. */
  predicate ServicesCopied(taken: set<string>, userId: nat, items: seq<Value>, rows: seq<Service>) {
    && |rows| <= |items|
    && (forall i :: 0 <= i < |rows| ==>
          && !items[i].Null?
          && rows[i] == ImportedService(userId, rows[i].serviceId, items[i])
          && rows[i].serviceId !in taken)
    && (forall i, j :: 0 <= i < j < |rows| ==> rows[i].serviceId != rows[j].serviceId)
  }

  lemma ServicesCopiedPrepend(taken: set<string>, userId: nat, items: seq<Value>, id: string, rows: seq<Service>)
    requires items != [] && id !in taken && !items[0].Null?
    requires ServicesCopied(taken + {id}, userId, items[1..], rows)
    ensures ServicesCopied(taken, userId, items, [ImportedService(userId, id, items[0])] + rows)
  {
    var row := ImportedService(userId, id, items[0]);
    var all := [row] + rows;
    forall i | 0 < i < |all|
      ensures !items[i].Null?
      ensures all[i] == ImportedService(userId, all[i].serviceId, items[i])
      ensures all[i].serviceId !in taken && all[i].serviceId != id
    {
      assert all[i] == rows[i - 1] && items[i] == items[1..][i - 1];
    }
    assert all[0] == row;
  }

  /** The services loop. `taken` holds the service ids in the table when the
      loop starts; each turn draws an id not taken by the table or by a row
      this loop created, stores the remote service under it and maps the remote
      id to it. A null element throws when its name is read, after its id was
      drawn. */
  function ImportServices(taken: set<string>, userId: nat, items: seq<Value>, candidates: seq<string>,
                          translation: map<string, string>): (r: Step<Service>)
    decreases |items|
    ensures r.Done? ==> |r.rows| == |items| && r.translation == Translated(translation, items, r.rows)
    ensures r.Failed? ==> |r.rows| < |items| && items[|r.rows|].Null?
    ensures r.Stuck? ==> |r.rows| < |items|
    ensures r.Stuck? ==> forall j :: 0 <= j < |candidates| ==> candidates[j] in taken + ServiceIds(r.rows)
    ensures ServicesCopied(taken, userId, items, r.rows)
  {
    if items == [] then Done([], translation, candidates)
    else match Draw(candidates, taken)
      case None => Stuck([])
      case Some(drawn) =>
        if items[0].Null? then Failed([])
        else
          ServiceThen(taken, userId, items, candidates, translation, drawn,
                      ImportServices(taken + {drawn.id}, userId, items[1..], drawn.rest,
                                     translation[RemoteKey(items[0]) := drawn.id]))
  }

  /** One turn of the services loop: the row for the first remote service,
      under the drawn id, in front of whatever the rest of the loop produced. */
  function ServiceThen(taken: set<string>, userId: nat, items: seq<Value>, candidates: seq<string>,
                       translation: map<string, string>, drawn: Drawn, r: Step<Service>): (s: Step<Service>)
    requires items != [] && !items[0].Null? && Draw(candidates, taken) == Some(drawn)
    requires r.Done? ==>
      && |r.rows| == |items[1..]|
      && r.translation == Translated(translation[RemoteKey(items[0]) := drawn.id], items[1..], r.rows)
    requires r.Failed? ==> |r.rows| < |items[1..]| && items[1..][|r.rows|].Null?
    requires r.Stuck? ==> |r.rows| < |items[1..]|
    requires r.Stuck? ==> forall j :: 0 <= j < |drawn.rest| ==> drawn.rest[j] in taken + {drawn.id} + ServiceIds(r.rows)
    requires ServicesCopied(taken + {drawn.id}, userId, items[1..], r.rows)
    ensures s.rows == [ImportedService(userId, drawn.id, items[0])] + r.rows
    ensures s.Done? == r.Done? && s.Failed? == r.Failed?
    ensures s.Done? ==> s.translation == r.translation && s.rest == r.rest
    ensures s.Done? ==> |s.rows| == |items| && s.translation == Translated(translation, items, s.rows)
    ensures s.Failed? ==> |s.rows| < |items| && items[|s.rows|].Null?
    ensures s.Stuck? ==> |s.rows| < |items|
    ensures s.Stuck? ==> forall j :: 0 <= j < |candidates| ==> candidates[j] in taken + ServiceIds(s.rows)
    ensures ServicesCopied(taken, userId, items, s.rows)
  {
    var rows := [ImportedService(userId, drawn.id, items[0])] + r.rows;
    ServicesCopiedPrepend(taken, userId, items, drawn.id, r.rows);
    assert rows[0].serviceId == drawn.id && rows[1..] == r.rows;
    match r
    case Done(_, t, rest) => Done(rows, t, rest)
    case Failed(_) =>
      assert items[|rows|] == items[1..][|r.rows|];
      Failed(rows)
    case Stuck(_) =>
      ServicesStuckPrepend(candidates, taken, rows[0], r.rows);
      Stuck(rows)
  }

  /** A complete services loop hands back what it left unread of the
      candidate stream. */
  lemma {:induction false} ImportServicesUnread(taken: set<string>, userId: nat, items: seq<Value>,
                                                candidates: seq<string>, translation: map<string, string>)
    decreases |items|
    ensures var r := ImportServices(taken, userId, items, candidates, translation);
      r.Done? ==> Unread(r.rest, candidates)
  {
    if items != [] {
      match Draw(candidates, taken)
      case None =>
      case Some(drawn) =>
        if !items[0].Null? {
          var next := translation[RemoteKey(items[0]) := drawn.id];
          ImportServicesUnread(taken + {drawn.id}, userId, items[1..], drawn.rest, next);
          var r := ImportServices(taken + {drawn.id}, userId, items[1..], drawn.rest, next);
          if r.Done? {
            DrawnUnread(candidates, taken, r.rest);
          }
        }
    }
  }

  /** A loop stuck after drawing the id of `row` has used every candidate:
      the ones before that id were taken, and the ones after it were used by
      the rest of the loop. */
  lemma ServicesStuckPrepend(candidates: seq<string>, taken: set<string>, row: Service, rows: seq<Service>)
    requires Draw(candidates, taken).Some? && row.serviceId == Draw(candidates, taken).value.id
    requires var rest := Draw(candidates, taken).value.rest;
      forall j :: 0 <= j < |rest| ==> rest[j] in taken + {row.serviceId} + ServiceIds(rows)
    ensures forall j :: 0 <= j < |candidates| ==> candidates[j] in taken + ServiceIds([row] + rows)
  {
    ServiceIdsPrepend(row, rows);
    DrawnStreamUsed(candidates, taken, ServiceIds(rows));
  }

  /** The services loop runs to the end when no remote service is null and
      the candidate stream holds a fresh id for each of them. */
  lemma {:induction false} ImportServicesCompletes(taken: set<string>, userId: nat, items: seq<Value>,
                                                   candidates: seq<string>, translation: map<string, string>)
    requires forall i :: 0 <= i < |items| ==> !items[i].Null?
    requires FreshSupply(candidates, taken, |items|)
    decreases |items|
    ensures ImportServices(taken, userId, items, candidates, translation).Done?
  {
    if items != [] {
      DrawFromFreshSupply(candidates, taken, |items|);
      forall i | 0 <= i < |items[1..]| ensures !items[1..][i].Null? {
        assert items[1..][i] == items[i + 1];
      }
      ImportServicesCompletes(taken + {candidates[0]}, userId, items[1..], candidates[1..],
                              translation[RemoteKey(items[0]) := candidates[0]]);
    }
  }

  /** The translation a run of the services loop leaves: starting from
      `translation`, the remote id of each service in turn is mapped to the
      local id of its row, a later service overriding an earlier one. */
  function Translated(translation: map<string, string>, items: seq<Value>, rows: seq<Service>): map<string, string>
    requires |rows| == |items|
    decreases |items|
  {
    if items == [] then translation
    else Translated(translation[RemoteKey(items[0]) := rows[0].serviceId], items[1..], rows[1..])
  }

  /** Remote service `i` is the last one carrying its remote id. */
  predicate LastWithKey(items: seq<Value>, i: int)
    requires 0 <= i < |items|
  {
    forall j :: i < j < |items| ==> RemoteKey(items[j]) != RemoteKey(items[i])
  }

  lemma LastWithKeyTail(items: seq<Value>, i: int)
    requires 0 < i < |items| && LastWithKey(items, i)
    ensures LastWithKey(items[1..], i - 1)
  {
    forall j | i - 1 < j < |items[1..]|
      ensures RemoteKey(items[1..][j]) != RemoteKey(items[1..][i - 1])
    {
      assert items[1..][j] == items[j + 1];
    }
  }

  /** A key no remote service carries keeps its translation. */
  lemma {:induction false} TranslatedKeeps(translation: map<string, string>, items: seq<Value>, rows: seq<Service>,
                                           k: string)
    requires |rows| == |items|
    requires forall j :: 0 <= j < |items| ==> RemoteKey(items[j]) != k
    decreases |items|
    ensures var t := Translated(translation, items, rows);
      (k in t <==> k in translation) && (k in translation ==> t[k] == translation[k])
  {
    if items != [] {
      assert RemoteKey(items[0]) != k;
      forall j | 0 <= j < |items[1..]| ensures RemoteKey(items[1..][j]) != k {
        assert items[1..][j] == items[j + 1];
      }
      TranslatedKeeps(translation[RemoteKey(items[0]) := rows[0].serviceId], items[1..], rows[1..], k);
    }
  }

  /** The translation maps the remote id of a service to the local id of the
      last service carrying that remote id. */
  lemma {:induction false} TranslatedLast(translation: map<string, string>, items: seq<Value>, rows: seq<Service>,
                                          i: int)
    requires |rows| == |items|
    requires 0 <= i < |items| && LastWithKey(items, i)
    decreases |items|
    ensures var t := Translated(translation, items, rows);
      RemoteKey(items[i]) in t && t[RemoteKey(items[i])] == rows[i].serviceId
  {
    var next := translation[RemoteKey(items[0]) := rows[0].serviceId];
    if i == 0 {
      forall j | 0 <= j < |items[1..]| ensures RemoteKey(items[1..][j]) != RemoteKey(items[0]) {
        assert items[1..][j] == items[j + 1];
      }
      TranslatedKeeps(next, items[1..], rows[1..], RemoteKey(items[0]));
    } else {
      LastWithKeyTail(items, i);
      TranslatedLast(next, items[1..], rows[1..], i - 1);
      assert items[1..][i - 1] == items[i] && rows[1..][i - 1] == rows[i];
    }
  }

  /** Every key the translation gains is the remote id of one of the services. */
  lemma {:induction false} TranslatedKeys(translation: map<string, string>, items: seq<Value>, rows: seq<Service>,
                                          k: string)
    requires |rows| == |items|
    requires k in Translated(translation, items, rows)
    decreases |items|
    ensures k in translation || exists i :: 0 <= i < |items| && RemoteKey(items[i]) == k
  {
    if items != [] && k != RemoteKey(items[0]) && k !in translation {
      TranslatedKeys(translation[RemoteKey(items[0]) := rows[0].serviceId], items[1..], rows[1..], k);
      var i :| 0 <= i < |items[1..]| && RemoteKey(items[1..][i]) == k;
      assert items[1..][i] == items[i + 1];
    }
  }

  /** A workspace member list rewritten through the translation: element by
      element, an untranslated id becomes undefined, which is stored as null. */
  function Translate(members: seq<Value>, translation: map<string, string>): (r: seq<Value>)
    ensures |r| == |members|
    ensures forall i :: 0 <= i < |members| ==>
      && (PropertyKey(Some(members[i])) in translation ==> r[i] == Str(translation[PropertyKey(Some(members[i]))]))
      && (PropertyKey(Some(members[i])) !in translation ==> r[i] == Null)
  {
    seq(|members|, i requires 0 <= i < |members| =>
      var key := PropertyKey(Some(members[i]));
      if key in translation then Str(translation[key]) else Null)
  }

  /** The member list of a remote workspace, when `workspace.services.map` can run. */
  function Members(workspace: Value): Option<seq<Value>> {
    match Prop(workspace, "services")
    case Some(Arr(members)) => Some(members)
    case _ => None
  }

  /** A workspace member carrying the remote id of a service becomes the
      local id of the last service with that remote id. */
  lemma MemberTranslated(members: seq<Value>, items: seq<Value>, rows: seq<Service>, m: int, i: int)
    requires |rows| == |items| && 0 <= m < |members| && 0 <= i < |items| && LastWithKey(items, i)
    requires PropertyKey(Some(members[m])) == RemoteKey(items[i])
    ensures Translate(members, Translated(map[], items, rows))[m] == Str(rows[i].serviceId)
  {
    TranslatedLast(map[], items, rows, i);
  }

  /** A workspace member that names no remote service becomes null. */
  lemma MemberUntranslated(members: seq<Value>, items: seq<Value>, rows: seq<Service>, m: int)
    requires |rows| == |items| && 0 <= m < |members|
    requires forall j :: 0 <= j < |items| ==> RemoteKey(items[j]) != PropertyKey(Some(members[m]))
    ensures Translate(members, Translated(map[], items, rows))[m] == Null
  {
    TranslatedKeeps(map[], items, rows, PropertyKey(Some(members[m])));
  }

  /** The workspace row imported from a remote workspace object. */
  function ImportedWorkspace(userId: nat, id: string, workspace: Value, members: seq<Value>,
                             translation: map<string, string>): Workspace {
    Workspace(userId, id, OrNull(Prop(workspace, "name")), OrNull(Prop(workspace, "order")),
              Arr(Translate(members, translation)), map[])
  }

  /** `rows` are copies of the first remote workspaces, in order, for this
      user, with their member lists translated, under distinct ids none of
      which was taken. */
  predicate WorkspacesCopied(taken: set<string>, userId: nat, items: seq<Value>, translation: map<string, string>,
                             rows: seq<Workspace>) {
    && |rows| <= |items|
    && (forall i :: 0 <= i < |rows| ==>
          && Members(items[i]).Some?
          && rows[i] == ImportedWorkspace(userId, rows[i].workspaceId, items[i], Members(items[i]).value, translation)
          && rows[i].workspaceId !in taken)
    && (forall i, j :: 0 <= i < j < |rows| ==> rows[i].workspaceId != rows[j].workspaceId)
  }

  lemma WorkspacesCopiedPrepend(taken: set<string>, userId: nat, items: seq<Value>, translation: map<string, string>,
                                id: string, rows: seq<Workspace>)
    requires items != [] && id !in taken && Members(items[0]).Some?
    requires WorkspacesCopied(taken + {id}, userId, items[1..], translation, rows)
    ensures WorkspacesCopied(taken, userId, items, translation,
                             [ImportedWorkspace(userId, id, items[0], Members(items[0]).value, translation)] + rows)
  {
    var row := ImportedWorkspace(userId, id, items[0], Members(items[0]).value, translation);
    var all := [row] + rows;
    forall i | 0 < i < |all|
      ensures Members(items[i]).Some?
      ensures all[i] == ImportedWorkspace(userId, all[i].workspaceId, items[i], Members(items[i]).value, translation)
      ensures all[i].workspaceId !in taken && all[i].workspaceId != id
    {
      assert all[i] == rows[i - 1] && items[i] == items[1..][i - 1];
    }
    assert all[0] == row;
  }

  /** The workspaces loop: a fresh id for each remote workspace, then its
      member list rewritten through the translation; a null workspace or one
      without a member array throws after its id was drawn. */
  function ImportWorkspaces(taken: set<string>, userId: nat, items: seq<Value>, candidates: seq<string>,
                            translation: map<string, string>): (r: Step<Workspace>)
    decreases |items|
    ensures r.Done? ==> |r.rows| == |items|
    ensures r.Failed? ==> |r.rows| < |items| && Members(items[|r.rows|]).None?
    ensures r.Stuck? ==> |r.rows| < |items|
    ensures r.Stuck? ==> forall j :: 0 <= j < |candidates| ==> candidates[j] in taken + WorkspaceIds(r.rows)
    ensures WorkspacesCopied(taken, userId, items, translation, r.rows)
  {
    if items == [] then Done([], translation, candidates)
    else match Draw(candidates, taken)
      case None => Stuck([])
      case Some(drawn) =>
        if items[0].Null? || Members(items[0]).None? then Failed([])
        else
          WorkspaceThen(taken, userId, items, candidates, translation, drawn,
                        ImportWorkspaces(taken + {drawn.id}, userId, items[1..], drawn.rest, translation))
  }

  /** One turn of the workspaces loop: the row for the first remote workspace,
      under the drawn id, in front of whatever the rest of the loop produced. */
  function WorkspaceThen(taken: set<string>, userId: nat, items: seq<Value>, candidates: seq<string>,
                         translation: map<string, string>, drawn: Drawn, r: Step<Workspace>): (s: Step<Workspace>)
    requires items != [] && Members(items[0]).Some? && Draw(candidates, taken) == Some(drawn)
    requires r.Done? ==> |r.rows| == |items[1..]|
    requires r.Failed? ==> |r.rows| < |items[1..]| && Members(items[1..][|r.rows|]).None?
    requires r.Stuck? ==> |r.rows| < |items[1..]|
    requires r.Stuck? ==> forall j :: 0 <= j < |drawn.rest| ==> drawn.rest[j] in taken + {drawn.id} + WorkspaceIds(r.rows)
    requires WorkspacesCopied(taken + {drawn.id}, userId, items[1..], translation, r.rows)
    ensures s.rows == [ImportedWorkspace(userId, drawn.id, items[0], Members(items[0]).value, translation)] + r.rows
    ensures s.Done? == r.Done? && s.Failed? == r.Failed?
    ensures s.Done? ==> s.translation == r.translation && s.rest == r.rest
    ensures s.Done? ==> |s.rows| == |items|
    ensures s.Failed? ==> |s.rows| < |items| && Members(items[|s.rows|]).None?
    ensures s.Stuck? ==> |s.rows| < |items|
    ensures s.Stuck? ==> forall j :: 0 <= j < |candidates| ==> candidates[j] in taken + WorkspaceIds(s.rows)
    ensures WorkspacesCopied(taken, userId, items, translation, s.rows)
  {
    WorkspacesCopiedPrepend(taken, userId, items, translation, drawn.id, r.rows);
    var rows := [ImportedWorkspace(userId, drawn.id, items[0], Members(items[0]).value, translation)] + r.rows;
    match r
    case Done(_, t, rest) => Done(rows, t, rest)
    case Failed(_) =>
      assert items[|rows|] == items[1..][|r.rows|];
      Failed(rows)
    case Stuck(_) =>
      WorkspacesStuckPrepend(candidates, taken, rows[0], r.rows);
      Stuck(rows)
  }

  /** A complete workspaces loop hands back what it left unread of the
      candidate stream. */
  lemma {:induction false} ImportWorkspacesUnread(taken: set<string>, userId: nat, items: seq<Value>,
                                                  candidates: seq<string>, translation: map<string, string>)
    decreases |items|
    ensures var r := ImportWorkspaces(taken, userId, items, candidates, translation);
      r.Done? ==> Unread(r.rest, candidates)
  {
    if items != [] {
      match Draw(candidates, taken)
      case None =>
      case Some(drawn) =>
        if !items[0].Null? && Members(items[0]).Some? {
          ImportWorkspacesUnread(taken + {drawn.id}, userId, items[1..], drawn.rest, translation);
          var r := ImportWorkspaces(taken + {drawn.id}, userId, items[1..], drawn.rest, translation);
          if r.Done? {
            DrawnUnread(candidates, taken, r.rest);
          }
        }
    }
  }

  lemma WorkspacesStuckPrepend(candidates: seq<string>, taken: set<string>, row: Workspace, rows: seq<Workspace>)
    requires Draw(candidates, taken).Some? && row.workspaceId == Draw(candidates, taken).value.id
    requires var rest := Draw(candidates, taken).value.rest;
      forall j :: 0 <= j < |rest| ==> rest[j] in taken + {row.workspaceId} + WorkspaceIds(rows)
    ensures forall j :: 0 <= j < |candidates| ==> candidates[j] in taken + WorkspaceIds([row] + rows)
  {
    WorkspaceIdsPrepend(row, rows);
    DrawnStreamUsed(candidates, taken, WorkspaceIds(rows));
  }

  /** The workspaces loop runs to the end when every remote workspace has a
      member array and the candidate stream holds a fresh id for each. */
  lemma {:induction false} ImportWorkspacesCompletes(taken: set<string>, userId: nat, items: seq<Value>,
                                                     candidates: seq<string>, translation: map<string, string>)
    requires forall i :: 0 <= i < |items| ==> Members(items[i]).Some?
    requires FreshSupply(candidates, taken, |items|)
    decreases |items|
    ensures ImportWorkspaces(taken, userId, items, candidates, translation).Done?
  {
    if items != [] {
      DrawFromFreshSupply(candidates, taken, |items|);
      assert !items[0].Null? && Members(items[0]).Some?;
      forall i | 0 <= i < |items[1..]| ensures Members(items[1..][i]).Some? {
        assert items[1..][i] == items[i + 1];
      }
      ImportWorkspacesCompletes(taken + {candidates[0]}, userId, items[1..], candidates[1..], translation);
    }
  }

  // ---------------------------------------------------------------------------
  // The import action

  const FederationOffText: string :=
    "Your account has been created but due to this server's configuration, we could not import your Franz account data.\n\nIf you are the server owner, please set CONNECT_WITH_FRANZ to true to enable account imports."
  /** The answer of the login `catch`: the caught error, serialised. */
  function LoginFailedBody(error: Object): Value {
    Obj(map["message" := Str("Cannot login to Franz"), "error" := Obj(error)])
  }
  const LoginRejectedText: string :=
    "Could not login into Franz with your supplied credentials. Please check and try again"
  const ProfileMissingText: string :=
    "Could not get your user info from Franz. Please check your credentials or try again later"
  const UserErrorPrefix: string := "Could not create your user in our system.\nError: "
  const ServicesErrorPrefix: string := "Could not import your services into our system.\nError: "
  const WorkspacesErrorPrefix: string := "Could not import your workspaces into our system.\nError: "
  const ImportedText: string := "Your account has been imported. You can now use your Franz account in Ferdi."

  /** The workspace step and the final answer, once the services are in. */
  function FinishImport(store: Store, userId: nat, workspaces: Remote, candidates: seq<string>,
                        translation: map<string, string>): (o: Outcome)
    ensures Grows(store, o.store)
    ensures o.store.users == store.users && o.store.services == store.services
    ensures workspaces.Hang? ==> o == Outcome(store, NoResponse)
    ensures workspaces.Answer? && Iterate(workspaces.value).None? ==>
      o == Outcome(store, SendError(401, WorkspacesErrorPrefix))
    ensures workspaces.Answer? && Iterate(workspaces.value).Some? ==>
      && var step := ImportWorkspaces(WorkspaceIds(store.workspaces), userId, Iterate(workspaces.value).value,
                                      candidates, translation);
      && o.store.workspaces == store.workspaces + step.rows
      && o.response == match step
           case Done(_, _, _) => Send(200, Str(ImportedText))
           case Failed(_) => SendError(401, WorkspacesErrorPrefix)
           case Stuck(_) => Diverges
  {
    if workspaces.Hang? then Outcome(store, NoResponse)
    else match Iterate(workspaces.value)
      case None => Outcome(store, SendError(401, WorkspacesErrorPrefix))
      case Some(items) =>
        var step := ImportWorkspaces(WorkspaceIds(store.workspaces), userId, items, candidates, translation);
        var after := store.(workspaces := store.workspaces + step.rows);
        assert after.workspaces[..|store.workspaces|] == store.workspaces;
        match step
        case Failed(_) => Outcome(after, SendError(401, WorkspacesErrorPrefix))
        case Stuck(_) => Outcome(after, Diverges)
        case Done(_, _, _) => Outcome(after, Send(200, Str(ImportedText)))
  }

  /** The service step and everything after it, once the user exists. */
  function ImportData(store: Store, userId: nat, upstream: Upstream, candidates: seq<string>): (o: Outcome)
    ensures Grows(store, o.store)
    ensures o.store.users == store.users
    ensures o.response.SendError? ==> o.response.prefix in {ServicesErrorPrefix, WorkspacesErrorPrefix}
    ensures upstream.services.Hang? ==> o == Outcome(store, NoResponse)
    ensures upstream.services.Answer? && Iterate(upstream.services.value).None? ==>
      o == Outcome(store, SendError(401, ServicesErrorPrefix))
    ensures upstream.services.Answer? && Iterate(upstream.services.value).Some? ==>
      && var step := ImportServices(ServiceIds(store.services), userId, Iterate(upstream.services.value).value,
                                    candidates, map[]);
      && o.store.services == store.services + step.rows
      && (step.Failed? ==> o.store.workspaces == store.workspaces && o.response == SendError(401, ServicesErrorPrefix))
      && (step.Stuck? ==> o.store.workspaces == store.workspaces && o.response == Diverges)
      && (step.Done? ==> o == FinishImport(store.(services := store.services + step.rows), userId,
                                           upstream.workspaces, step.rest, step.translation))
  {
    if upstream.services.Hang? then Outcome(store, NoResponse)
    else match Iterate(upstream.services.value)
      case None => Outcome(store, SendError(401, ServicesErrorPrefix))
      case Some(items) =>
        var step := ImportServices(ServiceIds(store.services), userId, items, candidates, map[]);
        var after := store.(services := store.services + step.rows);
        assert after.services[..|store.services|] == store.services;
        match step
        case Failed(_) => Outcome(after, SendError(401, ServicesErrorPrefix))
        case Stuck(_) => Outcome(after, Diverges)
        case Done(_, translation, rest) =>
          var o := FinishImport(after, userId, upstream.workspaces, rest, translation);
          GrowsTransitive(store, after, o.store);
          o
  }

  /** After a complete services step, every workspace the import adds is a
      copy of the remote workspace at the same position, under a fresh id,
      with its members rewritten through the translation the services built. */
  lemma {:induction false} ImportedWorkspacesTranslated(store: Store, userId: nat, upstream: Upstream,
                                                        candidates: seq<string>)
    requires upstream.services.Answer? && Iterate(upstream.services.value).Some?
    requires ImportServices(ServiceIds(store.services), userId, Iterate(upstream.services.value).value,
                            candidates, map[]).Done?
    requires upstream.workspaces.Answer? && Iterate(upstream.workspaces.value).Some?
    ensures var services := Iterate(upstream.services.value).value;
      var step := ImportServices(ServiceIds(store.services), userId, services, candidates, map[]);
      var spaces := Iterate(upstream.workspaces.value).value;
      var o := ImportData(store, userId, upstream, candidates);
      && |store.workspaces| <= |o.store.workspaces|
      && var added := o.store.workspaces[|store.workspaces|..];
      && |added| <= |spaces|
      && forall j :: 0 <= j < |added| ==>
           && Members(spaces[j]).Some?
           && added[j] == ImportedWorkspace(userId, added[j].workspaceId, spaces[j], Members(spaces[j]).value,
                                            Translated(map[], services, step.rows))
           && added[j].workspaceId !in WorkspaceIds(store.workspaces)
  {
    var services := Iterate(upstream.services.value).value;
    var step := ImportServices(ServiceIds(store.services), userId, services, candidates, map[]);
    var after := store.(services := store.services + step.rows);
    var spaces := Iterate(upstream.workspaces.value).value;
    var o := ImportData(store, userId, upstream, candidates);
    assert o == FinishImport(after, userId, upstream.workspaces, step.rest, step.translation);
    var wstep := ImportWorkspaces(WorkspaceIds(store.workspaces), userId, spaces, step.rest, step.translation);
    assert o.store.workspaces == store.workspaces + wstep.rows;
    assert o.store.workspaces[|store.workspaces|..] == wstep.rows;
    assert WorkspacesCopied(WorkspaceIds(store.workspaces), userId, spaces, step.translation, wstep.rows);
  }

  /** The federated part of the import, once the password is hashed: log in
      upstream, read the profile, create the user, copy its data. */
  function ImportFederated(store: Store, hashed: Value, upstream: Upstream, candidates: seq<string>): (o: Outcome)
    ensures Grows(store, o.store)
    ensures |o.store.users| <= |store.users| + 1
    ensures upstream.login.Thrown? ==> o == Outcome(store, Send(401, LoginFailedBody(upstream.login.error)))
    ensures upstream.login == Parsed(Null) ==> o == Outcome(store, Send(401, LoginFailedBody(map[])))
    ensures upstream.login.Parsed? && !upstream.login.body.Null? && !LoggedIn(upstream.login) ==>
      o == Outcome(store, Send(401, Str(LoginRejectedText)))
    ensures LoggedIn(upstream.login) && upstream.profile.Hang? ==> o == Outcome(store, NoResponse)
    ensures LoggedIn(upstream.login) && upstream.profile.Answer? && !Truthy(upstream.profile.value) ==>
      o == Outcome(store, Send(401, Str(ProfileMissingText)))
    ensures LoggedIn(upstream.login) && upstream.profile.Answer? && Truthy(upstream.profile.value) ==>
      && var profile := upstream.profile.value;
      && var created := InsertUser(store, Prop(profile, "email"), hashed, Prop(profile, "firstname"),
                                   Prop(profile, "lastname"));
      && (created.None? ==> o == Outcome(store, SendError(401, UserErrorPrefix)))
      && (created.Some? ==> o == ImportData(created.value, store.nextUserId, upstream, candidates))
    ensures !LoggedIn(upstream.login) ==> o.store == store
    ensures o.store != store ==>
      && |o.store.users| == |store.users| + 1
      && o.store.users[|store.users|].password == hashed
    ensures o.response.SendError? && o.response.prefix != UserErrorPrefix ==> |o.store.users| == |store.users| + 1
  {
    if upstream.login.Thrown? then Outcome(store, Send(401, LoginFailedBody(upstream.login.error)))
    // a null body makes `content.message` throw a TypeError, which has no own enumerable property
    else if upstream.login.body.Null? then Outcome(store, Send(401, LoginFailedBody(map[])))
    else if !LoggedIn(upstream.login) then Outcome(store, Send(401, Str(LoginRejectedText)))
    else if upstream.profile.Hang? then Outcome(store, NoResponse)
    else if !Truthy(upstream.profile.value) then Outcome(store, Send(401, Str(ProfileMissingText)))
    else
      var profile := upstream.profile.value;
      match InsertUser(store, Prop(profile, "email"), hashed, Prop(profile, "firstname"), Prop(profile, "lastname"))
      case None => Outcome(store, SendError(401, UserErrorPrefix))
      case Some(created) =>
        var o := ImportData(created, store.nextUserId, upstream, candidates);
        assert o.store.users[..|created.users|] == created.users;
        GrowsTransitive(store, created, o.store);
        o
  }

  /** UserController.import. `digest` is the base64 SHA-256 digest of a
      password; `candidates` the stream of random ids. */
  function Import(store: Store, env: Env, violations: seq<Violation>, email: Option<Value>, password: Option<Value>,
                  digest: string -> string, upstream: Upstream, candidates: seq<string>): (o: Outcome)
    ensures RegistrationDisabled(env) ==> o == Outcome(store, Send(401, Users.RegistrationDisabledBody))
    ensures !RegistrationDisabled(env) && violations != [] ==>
      o == Outcome(store, View("Error while importing", ErrorText(violations)))
    ensures Grows(store, o.store)
    ensures |o.store.users| <= |store.users| + 1
    ensures !ImportFederates(env) ==> o.store.services == store.services && o.store.workspaces == store.workspaces
    ensures ImportFederates(env) && !LoggedIn(upstream.login) ==> o.store == store
    ensures o.store != store ==>
      && password.Some? && password.value.Str?
      && |o.store.users| == |store.users| + 1
      && o.store.users[|store.users|].password == Str(digest(password.value.s))
    ensures !RegistrationDisabled(env) && violations == [] && !(password.Some? && password.value.Str?) ==>
      o == Outcome(store, Fault)
    ensures !RegistrationDisabled(env) && violations == [] && password.Some? && password.value.Str?
            && ImportFederates(env) ==>
      o == ImportFederated(store, Str(digest(password.value.s)), upstream, candidates)
    ensures o.response.SendError? && o.response.prefix != UserErrorPrefix ==> |o.store.users| == |store.users| + 1
  {
    if RegistrationDisabled(env) then Outcome(store, Send(401, Users.RegistrationDisabledBody))
    else if violations != [] then Outcome(store, View("Error while importing", ErrorText(violations)))
    else if !(password.Some? && password.value.Str?) then Outcome(store, Fault)
    else
      var hashed := Str(digest(password.value.s));
      if !ImportFederates(env) then
        match InsertUser(store, email, hashed, Some(Str("Franz")), Some(Str("Franz")))
        case None => Outcome(store, Fault)
        case Some(created) => Outcome(created, Send(200, Str(FederationOffText)))
      else ImportFederated(store, hashed, upstream, candidates)
  }

  /** With federation off the import is a local signup: exactly one user,
      named "Franz Franz", with the hashed password; the upstream is never
      consulted and no service or workspace is written. */
  lemma FederationOffCreatesUser(store: Store, env: Env, email: Option<Value>, password: string,
                                 digest: string -> string, upstream: Upstream, candidates: seq<string>)
    requires !RegistrationDisabled(env) && !ImportFederates(env)
    requires !EmailTaken(store.users, OrNull(email))
    ensures var o := Import(store, env, [], email, Some(Str(password)), digest, upstream, candidates);
      && o.store == store.(users := store.users + [User(store.nextUserId, OrNull(email), Str(digest(password)),
                                                      Str("Franz"), Str("Franz"), Null)],
                           nextUserId := store.nextUserId + 1)
      && o.response == Send(200, Str(FederationOffText))
  {
    var created := InsertUser(store, email, Str(digest(password)), Some(Str("Franz")), Some(Str("Franz"))).value;
    var user := User(store.nextUserId, OrNull(email), Str(digest(password)), Str("Franz"), Str("Franz"), Null);
    assert created.users == store.users + [user] by {
      assert created.users[..|store.users|] == store.users && created.users[|store.users|] == user;
    }
  }

  // ---------------------------------------------------------------------------
  // A whole import, worked through

  const ExampleService: Value := Obj(map["id" := Str("r1"), "name" := Str("S"), "recipeId" := Str("x")])
  const ExampleWorkspace: Value := Obj(map["name" := Str("W"), "order" := Num(0), "services" := Arr([Str("r1")])])
  const ExampleUpstream: Upstream :=
    Upstream(Parsed(Obj(map["message" := Str(LoginAccepted), "token" := Str("T")])),
             Answer(Obj(map["email" := Str("a@b.com"), "firstname" := Str("A"), "lastname" := Str("B")])),
             Answer(Arr([ExampleService])), Answer(Arr([ExampleWorkspace])))
  const ExampleServiceRow: Service := Service(1, "c1", Str("S"), Str("x"), ExampleService.fields)
  const ExampleWorkspaceRow: Workspace := Workspace(1, "c2", Str("W"), Num(0), Arr([Str("c1")]), map[])

  /** The services loop of the example: the service is stored under the first candidate. */
  lemma ExampleServices()
    ensures ImportServices({}, 1, [ExampleService], ["c1", "c2"], map[])
            == Done([ExampleServiceRow], map["r1" := "c1"], ["c2"])
  {
    assert RemoteKey(ExampleService) == "r1" by {
      assert Prop(ExampleService, "id") == Some(Str("r1"));
    }
    var t := map["r1" := "c1"];
    assert Draw(["c1", "c2"], {}) == Some(Drawn("c1", ["c2"]));
    assert [ExampleService][1..] == [];
    assert ImportServices({} + {"c1"}, 1, [], ["c2"], t) == Done([], t, ["c2"]);
    assert ImportedService(1, "c1", ExampleService) == ExampleServiceRow;
  }

  /** The workspaces loop of the example: the member "r1" becomes "c1". */
  lemma ExampleWorkspaces()
    ensures ImportWorkspaces({}, 1, [ExampleWorkspace], ["c2"], map["r1" := "c1"])
            == Done([ExampleWorkspaceRow], map["r1" := "c1"], [])
  {
    var t := map["r1" := "c1"];
    assert Members(ExampleWorkspace) == Some([Str("r1")]) by {
      assert Prop(ExampleWorkspace, "services") == Some(Arr([Str("r1")]));
    }
    assert Translate([Str("r1")], t) == [Str("c1")] by {
      assert PropertyKey(Some(Str("r1"))) == "r1";
    }
    assert ImportedWorkspace(1, "c2", ExampleWorkspace, [Str("r1")], t) == ExampleWorkspaceRow by {
      assert Prop(ExampleWorkspace, "name") == Some(Str("W")) && Prop(ExampleWorkspace, "order") == Some(Num(0));
    }
    assert Draw(["c2"], {}) == Some(Drawn("c2", []));
    assert [ExampleWorkspace][1..] == [];
    assert ImportWorkspaces({} + {"c2"}, 1, [], [], t) == Done([], t, []);
  }

  /** The data steps of the example, for any users table. */
  lemma ExampleData(users: seq<User>, nextUserId: nat)
    ensures ImportData(Store(users, [], [], [], nextUserId), 1, ExampleUpstream, ["c1", "c2"])
            == Outcome(Store(users, [ExampleServiceRow], [ExampleWorkspaceRow], [], nextUserId),
                       Send(200, Str(ImportedText)))
  {
    ExampleServices();
    ExampleWorkspaces();
    assert ServiceIds([]) == {} && WorkspaceIds([]) == {};
    assert Iterate(ExampleUpstream.services.value) == Some([ExampleService]);
    assert Iterate(ExampleUpstream.workspaces.value) == Some([ExampleWorkspace]);
    var withServices := Store(users, [ExampleServiceRow], [], [], nextUserId);
    assert FinishImport(withServices, 1, ExampleUpstream.workspaces, ["c2"], map["r1" := "c1"])
        == Outcome(withServices.(workspaces := [ExampleWorkspaceRow]), Send(200, Str(ImportedText)));
  }

  /** The example profile becomes the first user. */
  lemma ExampleUser(hashed: Value)
    ensures var profile := ExampleUpstream.profile.value;
      InsertUser(Store([], [], [], [], 1), Prop(profile, "email"), hashed, Prop(profile, "firstname"),
                 Prop(profile, "lastname"))
      == Some(Store([User(1, Str("a@b.com"), hashed, Str("A"), Str("B"), Null)], [], [], [], 2))
  {
    var profile := ExampleUpstream.profile.value;
    assert Prop(profile, "email") == Some(Str("a@b.com"));
    assert Prop(profile, "firstname") == Some(Str("A"));
    assert Prop(profile, "lastname") == Some(Str("B"));
  }

  /** The federated part of the example, from the login to the workspaces. */
  lemma ExampleFederated(store: Store, hashed: Value, upstream: Upstream)
    requires store == Store([], [], [], [], 1) && upstream == ExampleUpstream
    ensures ImportFederated(store, hashed, upstream, ["c1", "c2"])
            == Outcome(Store([User(1, Str("a@b.com"), hashed, Str("A"), Str("B"), Null)],
                             [ExampleServiceRow], [ExampleWorkspaceRow], [], 2),
                       Send(200, Str(ImportedText)))
  {
    assert LoggedIn(upstream.login) by {
      assert Prop(upstream.login.body, "message") == Some(Str(LoginAccepted));
    }
    assert upstream.profile.Answer? && Truthy(upstream.profile.value);
    ExampleUser(hashed);
    ExampleData([User(1, Str("a@b.com"), hashed, Str("A"), Str("B"), Null)], 2);
  }

  /** A whole import into an empty server: the profile becomes the user, the
      remote service is stored under the first fresh id, and the workspace,
      stored under the next one, lists the service by its new id. */
  lemma ImportExample(digest: string -> string)
    ensures var o := Import(Store([], [], [], [], 1), Env(None, None, None, None), [], Some(Str("a@b.com")),
                            Some(Str("pw")), digest, ExampleUpstream, ["c1", "c2"]);
      && o.response == Send(200, Str(ImportedText))
      && o.store.users == [User(1, Str("a@b.com"), Str(digest("pw")), Str("A"), Str("B"), Null)]
      && o.store.services == [Service(1, "c1", Str("S"), Str("x"), ExampleService.fields)]
      && o.store.workspaces == [Workspace(1, "c2", Str("W"), Num(0), Arr([Str("c1")]), map[])]
  {
    var hashed := Str(digest("pw"));
    ExampleFederated(Store([], [], [], [], 1), hashed, ExampleUpstream);
    var o := Import(Store([], [], [], [], 1), Env(None, None, None, None), [], Some(Str("a@b.com")),
                    Some(Str("pw")), digest, ExampleUpstream, ["c1", "c2"]);
    assert o == ImportFederated(Store([], [], [], [], 1), hashed, ExampleUpstream, ["c1", "c2"]);
  }
}

=== FILE: js.dfy ===
/**
 The slice of JavaScript value semantics the controllers rely on: JSON values,
 truthiness, `String(v)` (template literals, property keys, `RegExp.test`
 arguments), property reads that may throw, object spread, `for ... of`
 iteration and `x + 1`. Numbers are integers here.
 */
module Js {

  /** `undefined` is `None`; a present value is `Some`. */
  datatype Option<+T> = None | Some(value: T)

  /** A JSON value, as `JSON.parse` returns it. */
  datatype Value =
    | Null
    | Bool(b: bool)
    | Num(n: int)
    | Str(s: string)
    | Arr(items: seq<Value>)
    | Obj(fields: map<string, Value>)

  /** A plain JavaScript object: its own enumerable string-keyed properties. */
  type Object = map<string, Value>

  /** `!!v` */
  predicate Truthy(v: Value) {
    match v
    case Null => false
    case Bool(b) => b
    case Num(n) => n != 0
    case Str(s) => s != ""
    case Arr(_) => true
    case Obj(_) => true
  }

  /** `!!x` where `x` may be `undefined`. */
  predicate PresentAndTruthy(o: Option<Value>) {
    o.Some? && Truthy(o.value)
  }

  /** `m[key]` on a plain object. */
  function Get(m: Object, key: string): (r: Option<Value>)
    ensures r.Some? <==> key in m
    ensures r.Some? ==> r.value == m[key]
  {
    if key in m then Some(m[key]) else None
  }

  /** `{...m, key: x}` as `JSON.stringify` sends it: a property whose value is
      undefined is left out. */
  function WithDefined(m: Object, key: string, x: Option<Value>): (r: Object)
    ensures x.Some? ==> r == m[key := x.value]
    ensures x.None? ==> r == m
  {
    if x.Some? then m[key := x.value] else m
  }

  /** `undefined` written into a database column becomes NULL. */
  function OrNull(o: Option<Value>): Value {
    if o.Some? then o.value else Null
  }

  // ---------------------------------------------------------------------------
  // Decimal numerals

  function DigitChar(d: nat): char
    requires d < 10
  {
    "0123456789"[d]
  }

  function DigitValue(c: char): nat {
    if '0' <= c <= '9' then (c as int - '0' as int) else 0
  }

  /** The decimal numeral of a natural number, without leading zeros. */
  function Decimal(n: nat): (s: string)
    ensures |s| > 0
  {
    if n < 10 then [DigitChar(n)] else Decimal(n / 10) + [DigitChar(n % 10)]
  }

  /** Reads a string of decimal digits back as a number. */
  function ParseDecimal(s: string): nat {
    if s == [] then 0 else ParseDecimal(s[..|s| - 1]) * 10 + DigitValue(s[|s| - 1])
  }

  lemma {:induction false} DecimalRoundTrip(n: nat)
    ensures ParseDecimal(Decimal(n)) == n
  {
    if n >= 10 {
      var s := Decimal(n);
      assert s[..|s| - 1] == Decimal(n / 10);
      DecimalRoundTrip(n / 10);
    }
  }

  lemma DecimalInjective()
    ensures forall m: nat, n: nat :: Decimal(m) == Decimal(n) ==> m == n
  {
    forall m: nat, n: nat | Decimal(m) == Decimal(n)
      ensures m == n
    {
      DecimalRoundTrip(m);
      DecimalRoundTrip(n);
    }
  }

  /** `String(n)` for an integral number. */
  function IntStr(n: int): string {
    if n < 0 then "-" + Decimal(-n) else Decimal(n)
  }

  // ---------------------------------------------------------------------------
  // String conversion

  /** `String(v)`: what a template literal `${v}` or a property key yields. */
  function ToStr(v: Value): string
    decreases v, 1
  {
    match v
    case Null => "null"
    case Bool(b) => if b then "true" else "false"
    case Num(n) => IntStr(n)
    case Str(s) => s
    case Arr(items) => JoinElements(items)
    case Obj(_) => "[object Object]"
  }

  /** `items.join(",")`: a null element contributes the empty string. */
  function JoinElements(items: seq<Value>): string
    decreases items, 0
  {
    if items == [] then ""
    else
      var head := if items[0].Null? then "" else ToStr(items[0]);
      if |items| == 1 then head else head + "," + JoinElements(items[1..])
  }

  /** `${x}` where `x` may be `undefined`. */
  function Template(o: Option<Value>): string {
    if o.Some? then ToStr(o.value) else "undefined"
  }

  /** `${Env.get(name)}`: an unset variable is interpolated as "undefined". */
  function EnvTemplate(o: Option<string>): string {
    if o.Some? then o.value else "undefined"
  }

  /** The property key under which `obj[x] = ...` stores, for `x` possibly undefined. */
  function PropertyKey(o: Option<Value>): string {
    Template(o)
  }

  predicate ContainsChar(s: string, c: char) {
    exists i :: 0 <= i < |s| && s[i] == c
  }

  // ---------------------------------------------------------------------------
  // Property reads, spread, iteration, addition

  /** `v.key` on a JSON value other than null (reading a property of null
      throws, and callers decide that case first): a primitive or an array
      has none of the keys the controllers read. */
  function Prop(v: Value, key: string): (r: Option<Value>)
    ensures v.Obj? ==> r == Get(v.fields, key)
    ensures !v.Obj? ==> r.None?
  {
    if v.Obj? then Get(v.fields, key) else None
  }

  /** `{...low, ...high}`: a right-biased union. */
  function Overlay(low: Object, high: Object): (r: Object)
    ensures r.Keys == low.Keys + high.Keys
    ensures forall k :: k in high ==> r[k] == high[k]
    ensures forall k :: k in low && k !in high ==> r[k] == low[k]
  {
    low + high
  }

  /** The object `{...items}` for an array (or the characters of a string):
      element i under the key String(i). */
  function Indexed(items: seq<Value>): (r: Object)
    ensures forall i :: 0 <= i < |items| ==> Decimal(i) in r && r[Decimal(i)] == items[i]
    ensures forall k :: k in r ==> exists i :: 0 <= i < |items| && k == Decimal(i)
  {
    if items == [] then map[]
    else
      var last := |items| - 1;
      var r := Indexed(items[..last])[Decimal(last) := items[last]];
      DecimalInjective();
      assert forall i :: 0 <= i < last ==> items[..last][i] == items[i];
      r
  }

  function Chars(s: string): (r: seq<Value>)
    ensures |r| == |s|
    ensures forall i :: 0 <= i < |s| ==> r[i] == Str([s[i]])
  {
    seq(|s|, i requires 0 <= i < |s| => Str([s[i]]))
  }

  /** `{...v}` for a JSON value: objects contribute their fields, arrays and
      strings their elements by index, everything else nothing. */
  function Spread(v: Value): (r: Object)
    ensures v.Obj? ==> r == v.fields
    ensures !Truthy(v) && !v.Arr? ==> r == map[]
  {
    match v
    case Obj(fields) => fields
    case Arr(items) => Indexed(items)
    case Str(s) => Indexed(Chars(s))
    case _ => map[]
  }

  /** `{...x}` for `x` possibly undefined. */
  function SpreadOpt(o: Option<Value>): (r: Object)
    ensures o.None? ==> r == map[]
  {
    if o.Some? then Spread(o.value) else map[]
  }

  /** The elements `for (const x of v)` visits, or None when `v` is not iterable. */
  function Iterate(v: Value): (r: Option<seq<Value>>)
    ensures v.Arr? ==> r == Some(v.items)
    ensures (v.Null? || v.Bool? || v.Num? || v.Obj?) ==> r.None?
  {
    match v
    case Arr(items) => Some(items)
    case Str(s) => Some(Chars(s))
    case _ => None
  }

  /** `v + 1`: numeric addition for numbers, booleans and null, string
      concatenation for everything else. */
  function PlusOne(v: Value): (r: Value)
    ensures v.Num? ==> r == Num(v.n + 1)
    ensures v.Str? ==> r == Str(v.s + "1")
    ensures v.Null? ==> r == Num(1)
  {
    match v
    case Null => Num(1)
    case Bool(b) => Num(if b then 2 else 1)
    case Num(n) => Num(n + 1)
    case _ => Str(ToStr(v) + "1")
  }

  /** Spreading an object built by a spread gives the same fields back: storing
      `{...v}` instead of `v` is invisible to any later spread. */
  lemma SpreadOfSpread(v: Value)
    ensures Spread(Obj(Spread(v))) == Spread(v)
  {
  }

  /** Reading a non-numeric key of a non-null value finds what the spread of
      the value holds under it: storing `{...v}` in place of `v` is invisible
      to the property reads of later readers too. */
  lemma PropReadsSpread(v: Value, k: string)
    requires !v.Null?
    requires forall i: nat :: k != Decimal(i)
    ensures Prop(v, k) == Get(Spread(v), k)
  {
  }
}

=== FILE: recipes.dfy ===
/**
 The recipe directory: the official catalogue fetched from the upstream server
 merged with the custom recipes of the local table, for listing, search,
 creation and download. A recipe id ends up as a file name, so ids containing
 "." or "/" are refused.
 */
module Recipes {
  import opened Js
  import opened Store
  import opened Http

  /** The upstream recipe directory. */
  const UpstreamRecipes: string := "https://api.franzinfra.com/v1/recipes"

  /** The reserved search needle that asks for the custom recipes only. */
  const CustomNeedle: string := "ferdi:custom"

  /** `/\.{1,}/.test(id) || /\/{1,}/.test(id)` */
  predicate UnsafeId(id: string) {
    ContainsChar(id, '.') || ContainsChar(id, '/')
  }

  /** A custom recipe as `list` and `search` show it: `{id, name, ...data}`. */
  function RenderRecipe(recipe: Recipe): (r: Object)
    ensures r.Keys == {"id", "name"} + recipe.data.Keys
    ensures forall k :: k in recipe.data ==> r[k] == recipe.data[k]
    ensures "id" !in recipe.data ==> r["id"] == recipe.recipeId
    ensures "name" !in recipe.data ==> r["name"] == recipe.name
  {
    Overlay(map["id" := recipe.recipeId, "name" := recipe.name], recipe.data)
  }

  function RenderRecipes(recipes: seq<Recipe>): (r: seq<Value>)
    ensures |r| == |recipes|
    ensures forall i :: 0 <= i < |recipes| ==> r[i] == Obj(RenderRecipe(recipes[i]))
  {
    seq(|recipes|, i requires 0 <= i < |recipes| => Obj(RenderRecipe(recipes[i])))
  }

  /** RecipeController.list: the official catalogue followed by every custom
      recipe. `official` is the parsed upstream answer, None when the fetch or
      the parse failed; neither failure is caught. */
  function List(store: Store, official: Option<Value>): (o: Outcome)
    ensures o.store == store
    ensures official.None? ==> o.response == Fault
    ensures official.Some? && Iterate(official.value).None? ==> o.response == Fault
    ensures official.Some? && Iterate(official.value).Some? ==>
      && var remote := Iterate(official.value).value;
      && o.response.Send? && o.response.body.Arr?
      && var shown := o.response.body.items;
      && |shown| == |remote| + |store.recipes|
      && shown[..|remote|] == remote
      && shown[|remote|..] == RenderRecipes(store.recipes)
  {
    if official.None? then Outcome(store, Fault)
    else match Iterate(official.value)
      case None => Outcome(store, Fault)
      case Some(remote) =>
        var shown := remote + RenderRecipes(store.recipes);
        assert shown[..|remote|] == remote;
        assert shown[|remote|..] == RenderRecipes(store.recipes);
        Outcome(store, Send(200, Arr(shown)))
  }

  /** The data blob of a created recipe; an undefined author or svg is dropped
      by `JSON.stringify`. */
  function RecipeData(data: Object): (r: Object)
    ensures "featured" in r && "version" in r && "icons" in r
    ensures r["featured"] == Bool(false) && r["version"] == Str("1.0.0")
    ensures r["icons"] == Obj(WithDefined(map[], "svg", Get(data, "svg")))
    ensures "author" in r <==> "author" in data
    ensures "author" in data ==> r["author"] == data["author"]
    ensures r.Keys <= {"author", "featured", "version", "icons"}
  {
    WithDefined(map["featured" := Bool(false), "version" := Str("1.0.0"),
                    "icons" := Obj(WithDefined(map[], "svg", Get(data, "svg")))],
                "author", Get(data, "author"))
  }

  const CreationDisabledText: string := "This server doesn't allow the creation of new recipes."
  const MissingIdText: string := "Please provide an ID"
  const InvalidIdText: string := "Invalid recipe name. Your recipe name may not contain \".\" or \"/\""

  /** RecipeController.create. `filesUploaded` says whether the request carries
      the `files` upload; without it moving the files throws. */
  function Create(store: Store, env: Env, violations: seq<Violation>, data: Object, filesUploaded: bool): (o: Outcome)
    ensures CreationDisabled(env) ==> o == Outcome(store, Send(200, Str(CreationDisabledText)))
    ensures !CreationDisabled(env) && violations != [] ==> o == Outcome(store, BadRequest(violations))
    ensures !CreationDisabled(env) && violations == [] && !PresentAndTruthy(Get(data, "id")) ==>
      o == Outcome(store, Send(200, Str(MissingIdText)))
    ensures !CreationDisabled(env) && violations == [] && PresentAndTruthy(Get(data, "id"))
            && UnsafeId(ToStr(data["id"])) ==>
      o == Outcome(store, Send(200, Str(InvalidIdText)))
    ensures !CreationDisabled(env) && violations == [] && PresentAndTruthy(Get(data, "id"))
            && !UnsafeId(ToStr(data["id"])) && !filesUploaded ==>
      o == Outcome(store, Fault)
    ensures o.store != store ==>
      && PresentAndTruthy(Get(data, "id")) && !UnsafeId(ToStr(data["id"])) && filesUploaded
      && o.store == store.(recipes := store.recipes + [Recipe(data["id"], OrNull(Get(data, "name")), RecipeData(data))])
      && o.response == Send(200, Str("Created new recipe"))
    ensures (!CreationDisabled(env) && violations == [] && PresentAndTruthy(Get(data, "id"))
             && !UnsafeId(ToStr(data["id"])) && filesUploaded) ==> o.store != store
  {
    if CreationDisabled(env) then Outcome(store, Send(200, Str(CreationDisabledText)))
    else if violations != [] then Outcome(store, BadRequest(violations))
    else if !PresentAndTruthy(Get(data, "id")) then Outcome(store, Send(200, Str(MissingIdText)))
    else if UnsafeId(ToStr(data["id"])) then Outcome(store, Send(200, Str(InvalidIdText)))
    else if !filesUploaded then Outcome(store, Fault)
    else
      var recipe := Recipe(data["id"], OrNull(Get(data, "name")), RecipeData(data));
      assert |store.recipes + [recipe]| != |store.recipes|;
      Outcome(store.(recipes := store.recipes + [recipe]), Send(200, Str("Created new recipe")))
  }

  /** A created recipe is listed last with its id, name, author and the fixed
      version, featured flag and icon. */
  lemma CreateThenList(store: Store, env: Env, data: Object, official: Option<Value>)
    requires Create(store, env, [], data, true).store != store
    requires official.Some? && Iterate(official.value).Some?
    ensures var created := Create(store, env, [], data, true).store;
      var shown := List(created, official).response.body.items;
      && |shown| > 0 && shown[|shown| - 1].Obj?
      && var entry := shown[|shown| - 1].fields;
      && entry["id"] == data["id"]
      && entry["version"] == Str("1.0.0")
      && entry["featured"] == Bool(false)
      && ("author" in data ==> entry["author"] == data["author"])
  {
  }

  /** RecipeController.search. `matches` is the SQL `name LIKE %needle%` test;
      `remote` is the parsed upstream search answer (None when it failed). */
  function Search(store: Store, env: Env, violations: seq<Violation>, needle: Option<Value>,
                  matches: Value -> bool, remote: Option<Value>): (o: Outcome)
    ensures o.store == store
    ensures violations != [] ==> o.response == BadRequest(violations)
    ensures violations == [] && needle == Some(Str(CustomNeedle)) ==>
      o.response == Send(200, Arr(RenderRecipes(store.recipes)))
    ensures violations == [] && needle != Some(Str(CustomNeedle)) && RecipesFederate(env) && remote.None? ==>
      o.response == Fault
    ensures violations == [] && needle != Some(Str(CustomNeedle)) && !RecipesFederate(env) ==>
      o.response == Send(200, Arr(RenderRecipes(Keep(store.recipes, (r: Recipe) => matches(r.name)))))
    ensures violations == [] && needle != Some(Str(CustomNeedle)) && RecipesFederate(env) && remote.Some? ==>
      && var local := RenderRecipes(Keep(store.recipes, (r: Recipe) => matches(r.name)));
      && (!Truthy(remote.value) ==> o.response == Send(200, Arr(local)))
      && (Truthy(remote.value) && Iterate(remote.value).Some? ==>
            o.response == Send(200, Arr(local + Iterate(remote.value).value)))
      && (Truthy(remote.value) && Iterate(remote.value).None? ==> o.response == Fault)
    ensures violations == [] && needle != Some(Str(CustomNeedle)) && o.response.Send? ==>
      && var local := RenderRecipes(Keep(store.recipes, (r: Recipe) => matches(r.name)));
      && o.response.body.Arr?
      && |local| <= |o.response.body.items|
      && o.response.body.items[..|local|] == local
  {
    if violations != [] then Outcome(store, BadRequest(violations))
    else if needle == Some(Str(CustomNeedle)) then Outcome(store, Send(200, Arr(RenderRecipes(store.recipes))))
    else if RecipesFederate(env) && remote.None? then Outcome(store, Fault)
    else
      var remoteResults := if RecipesFederate(env) then remote.value else Arr([]);
      var local := RenderRecipes(Keep(store.recipes, (r: Recipe) => matches(r.name)));
      if !Truthy(remoteResults) then Outcome(store, Send(200, Arr(local)))
      else match Iterate(remoteResults)
        case None => Outcome(store, Fault)
        case Some(items) =>
          assert (local + items)[..|local|] == local;
          assert items == [] ==> local + items == local;
          Outcome(store, Send(200, Arr(local + items)))
  }

  /** The reserved needle answers the same whatever the federation flag, the
      upstream answer or the name filter: no remote lookup is made. */
  lemma {:induction false} CustomNeedleIsLocal(store: Store, env1: Env, env2: Env, matches1: Value -> bool,
                                               matches2: Value -> bool, remote1: Option<Value>, remote2: Option<Value>)
    ensures Search(store, env1, [], Some(Str(CustomNeedle)), matches1, remote1)
         == Search(store, env2, [], Some(Str(CustomNeedle)), matches2, remote2)
  {
  }

  /** With federation on and an array answer, local matches come first and
      the upstream results follow in their order. */
  lemma {:induction false} SearchLocalThenRemote(store: Store, env: Env, needle: Option<Value>,
                                                 matches: Value -> bool, items: seq<Value>)
    requires needle != Some(Str(CustomNeedle)) && RecipesFederate(env)
    ensures var local := RenderRecipes(Keep(store.recipes, (r: Recipe) => matches(r.name)));
      Search(store, env, [], needle, matches, Some(Arr(items))).response == Send(200, Arr(local + items))
  {
    var local := RenderRecipes(Keep(store.recipes, (r: Recipe) => matches(r.name)));
    assert local + [] == local;
  }

  const InvalidNameText: string := "Invalid recipe name"

  /** RecipeController.download. `recipe` is the route parameter and `drive`
      the names of the archives in the recipe Drive. */
  function Download(env: Env, violations: seq<Violation>, recipe: string, drive: set<string>): (r: Response)
    ensures violations != [] ==> r == BadRequest(violations)
    ensures violations == [] && UnsafeId(recipe) ==> r == Send(200, Str(InvalidNameText))
    ensures violations == [] && !UnsafeId(recipe) && recipe + ".tar.gz" in drive ==> r == DriveFile(recipe + ".tar.gz")
    ensures violations == [] && !UnsafeId(recipe) && recipe + ".tar.gz" !in drive && RecipesFederate(env) ==>
      r == Redirect(UpstreamRecipes + "/download/" + recipe)
    ensures violations == [] && !UnsafeId(recipe) && recipe + ".tar.gz" !in drive && !RecipesFederate(env) ==>
      r == Send(400, Obj(map["message" := Str("Recipe not found"), "code" := Str("recipe-not-found")]))
  {
    if violations != [] then BadRequest(violations)
    else if UnsafeId(recipe) then Send(200, Str(InvalidNameText))
    else if recipe + ".tar.gz" in drive then DriveFile(recipe + ".tar.gz")
    else if RecipesFederate(env) then Redirect(UpstreamRecipes + "/download/" + recipe)
    else Send(400, Obj(map["message" := Str("Recipe not found"), "code" := Str("recipe-not-found")]))
  }

  /** Whatever the Drive holds, an unsafe id is never served, redirected or
      looked up: the answer is the same for every Drive and every flag. */
  lemma UnsafeIdNeverReachesDrive(env1: Env, env2: Env, recipe: string, drive1: set<string>, drive2: set<string>)
    requires UnsafeId(recipe)
    ensures Download(env1, [], recipe, drive1) == Download(env2, [], recipe, drive2)
    ensures !Download(env1, [], recipe, drive1).DriveFile?
  {
  }
}

=== FILE: services.dfy ===
/**
 The service actions: create, list, edit (icon upload or settings merge),
 reorder and delete. A service is a row plus a settings object; every answer
 that shows a service layers built-in defaults, the stored settings and a few
 fixed fields in a definite order.
 */
module Services {
  import opened Js
  import opened Store
  import opened Http
  import opened FreshIds

  // ---------------------------------------------------------------------------
  // Rendering

  /** The fields of the create answer that the request data may override. */
  function CreateDefaults(userId: nat, id: string): Object {
    map[
      "userId" := Num(userId),
      "id" := Str(id),
      "isEnabled" := Bool(true),
      "isNotificationEnabled" := Bool(true),
      "isBadgeEnabled" := Bool(true),
      "isMuted" := Bool(false),
      "isDarkModeEnabled" := Str(""),
      "spellcheckerLanguage" := Str(""),
      "order" := Num(1),
      "customRecipe" := Bool(false),
      "hasCustomIcon" := Bool(false),
      "workspaces" := Arr([]),
      "iconUrl" := Null
    ]
  }

  /** The fields of a listed service that its stored settings may override. */
  function ListDefaults(settings: Object): Object {
    map[
      "customRecipe" := Bool(false),
      "hasCustomIcon" := Bool(PresentAndTruthy(Get(settings, "iconId"))),
      "isBadgeEnabled" := Bool(true),
      "isDarkModeEnabled" := Str(""),
      "isEnabled" := Bool(true),
      "isMuted" := Bool(false),
      "isNotificationEnabled" := Bool(true),
      "order" := Num(1),
      "spellcheckerLanguage" := Str(""),
      "workspaces" := Arr([])
    ]
  }

  /** `${APP_URL}/v1/icon/${iconId}` */
  function IconLink(env: Env, iconId: string): string {
    EnvTemplate(env.appUrl) + "/v1/icon/" + iconId
  }

  /** The `iconUrl` of a listed service: null exactly when `settings.iconId` is falsy. */
  function ListIconUrl(env: Env, settings: Object): (r: Value)
    ensures r.Null? <==> !PresentAndTruthy(Get(settings, "iconId"))
    ensures !r.Null? ==> r == Str(IconLink(env, ToStr(settings["iconId"])))
  {
    var icon := Get(settings, "iconId");
    if PresentAndTruthy(icon) then Str(IconLink(env, ToStr(icon.value))) else Null
  }

  /** The fields a listed service always shows, whatever its settings hold. */
  function ListFixed(env: Env, row: Service, userId: nat): Object {
    map[
      "iconUrl" := ListIconUrl(env, row.settings),
      "id" := Str(row.serviceId),
      "name" := row.name,
      "recipeId" := row.recipeId,
      "userId" := Num(userId)
    ]
  }

  /** The keys a listed service always takes from the row, never from its settings. */
  const FixedKeys: set<string> := {"iconUrl", "id", "name", "recipeId", "userId"}

  /** One service as `list` and `reorder` show it: defaults, then the stored
      settings, then the fixed fields. */
  function Render(env: Env, row: Service, userId: nat): (r: Object)
    ensures r.Keys == ListDefaults(row.settings).Keys + row.settings.Keys + FixedKeys
    ensures r["id"] == Str(row.serviceId) && r["name"] == row.name && r["recipeId"] == row.recipeId
    ensures r["userId"] == Num(userId) && r["iconUrl"] == ListIconUrl(env, row.settings)
    ensures forall k :: k in row.settings && k !in FixedKeys ==> k in r && r[k] == row.settings[k]
    ensures forall k :: k in ListDefaults(row.settings) && k !in row.settings ==>
      k in r && r[k] == ListDefaults(row.settings)[k]
  {
    var fixed := ListFixed(env, row, userId);
    var defaults := ListDefaults(row.settings);
    assert fixed.Keys == FixedKeys;
    assert defaults.Keys !! FixedKeys;
    var low := Overlay(defaults, row.settings);
    Overlay(low, fixed)
  }

  /** The answer of `list` and `reorder`: every service of the caller, in store order. */
  function RenderAll(env: Env, rows: seq<Service>, userId: nat): (r: seq<Value>)
    ensures |r| == |rows|
    ensures forall i :: 0 <= i < |rows| ==> r[i] == Obj(Render(env, rows[i], userId))
  {
    seq(|rows|, i requires 0 <= i < |rows| => Obj(Render(env, rows[i], userId)))
  }

  // ---------------------------------------------------------------------------
  // Create and list

  /** The row `create` inserts: the whole request data becomes the settings. */
  function NewService(userId: nat, id: string, data: Object): Service {
    Service(userId, id, OrNull(Get(data, "name")), OrNull(Get(data, "recipeId")), data)
  }

  /** ServiceController.create: a fresh service id, the request data stored as
      settings, and an answer in which the request data overrides the defaults. */
  function Create(store: Store, auth: Option<nat>, violations: seq<Violation>, data: Object,
                  candidates: seq<string>): (o: Outcome)
    ensures auth.None? ==> o == Outcome(store, InvalidToken)
    ensures auth.Some? && violations != [] ==> o == Outcome(store, BadRequest(violations))
    ensures auth.Some? && violations == [] ==>
      (o.response.Diverges? <==> forall j :: 0 <= j < |candidates| ==> candidates[j] in ServiceIds(store.services))
    ensures o.response.Diverges? ==> o.store == store
    ensures auth.Some? && violations == [] && !o.response.Diverges? ==>
      && |o.store.services| == |store.services| + 1
      && var row := o.store.services[|store.services|];
      && o.store == store.(services := store.services + [row])
      && row.serviceId !in ServiceIds(store.services)
      && row.serviceId in candidates
      && row.userId == auth.value
      && row.settings == data
      && row.name == OrNull(Get(data, "name"))
      && row.recipeId == OrNull(Get(data, "recipeId"))
      && var shown := Payload(o.response);
      && o.response == Send(200, Envelope(shown, "created"))
      && shown.Keys == CreateDefaults(auth.value, row.serviceId).Keys + data.Keys
      && (forall k :: k in data ==> shown[k] == data[k])
      && (forall k :: k in CreateDefaults(auth.value, row.serviceId) && k !in data ==>
            k in shown && shown[k] == CreateDefaults(auth.value, row.serviceId)[k])
  {
    if auth.None? then Outcome(store, InvalidToken)
    else if violations != [] then Outcome(store, BadRequest(violations))
    else
      match Draw(candidates, ServiceIds(store.services))
      case None => Outcome(store, Diverges)
      case Some(drawn) =>
        var row := NewService(auth.value, drawn.id, data);
        PayloadOfEnvelope(200, Overlay(CreateDefaults(auth.value, drawn.id), data), "created");
        Outcome(store.(services := store.services + [row]),
                Send(200, Envelope(Overlay(CreateDefaults(auth.value, drawn.id), data), "created")))
  }

  /** ServiceController.list */
  function List(store: Store, env: Env, auth: Option<nat>): (o: Outcome)
    ensures o.store == store
    ensures auth.None? ==> o.response == InvalidToken
    ensures auth.Some? ==>
      && o.response.Send? && o.response.body.Arr?
      && var shown := o.response.body.items;
      && var owned := ServicesOf(store.services, auth.value);
      && |shown| == |owned|
      && forall i :: 0 <= i < |owned| ==> shown[i] == Obj(Render(env, owned[i], auth.value))
  {
    if auth.None? then Outcome(store, InvalidToken)
    else Outcome(store, Send(200, Arr(RenderAll(env, ServicesOf(store.services, auth.value), auth.value))))
  }

  /** A service created by `create` is listed last, under its generated id,
      with every request field that is not a fixed field. */
  lemma {:induction false} CreateThenList(store: Store, env: Env, userId: nat, data: Object, candidates: seq<string>)
    requires !Create(store, Some(userId), [], data, candidates).response.Diverges?
    ensures var created := Create(store, Some(userId), [], data, candidates).store;
      var shown := List(created, env, Some(userId)).response.body.items;
      && |shown| == |ServicesOf(store.services, userId)| + 1
      && shown[|shown| - 1].Obj?
      && var entry := shown[|shown| - 1].fields;
      && entry["id"] == Str(created.services[|store.services|].serviceId)
      && entry["userId"] == Num(userId)
      && entry["recipeId"] == OrNull(Get(data, "recipeId"))
      && forall k :: k in data && k !in FixedKeys ==> k in entry && entry[k] == data[k]
  {
    var created := Create(store, Some(userId), [], data, candidates).store;
    var row := created.services[|store.services|];
    var p := (s: Service) => s.userId == userId;
    assert created.services == store.services + [row];
    KeepAppend(store.services, row, p);
    assert ServicesOf(created.services, userId) == ServicesOf(store.services, userId) + [row];
  }

  // ---------------------------------------------------------------------------
  // Edit

  /** `.where("serviceId", id).where("userId", userId).update(...)` */
  function UpdateOwned(rows: seq<Service>, id: string, userId: nat, f: Service -> Service): (r: seq<Service>)
    ensures |r| == |rows|
    ensures forall i :: 0 <= i < |rows| ==> r[i] == (if OwnedService(rows[i], id, userId) then f(rows[i]) else rows[i])
  {
    seq(|rows|, i requires 0 <= i < |rows| => if OwnedService(rows[i], id, userId) then f(rows[i]) else rows[i])
  }

  /** The settings stored by an icon upload: every prior key kept, `iconId`
      replaced, and `customIconVersion` incremented when it was truthy and 1
      otherwise. `prior` is None when the caller owns no such service. */
  function IconSettings(prior: Option<Object>, fileName: string): (r: Object)
    ensures "iconId" in r && r["iconId"] == Str(fileName)
    ensures "customIconVersion" in r
    ensures prior.Some? && PresentAndTruthy(Get(prior.value, "customIconVersion")) ==>
      r["customIconVersion"] == PlusOne(prior.value["customIconVersion"])
    ensures !(prior.Some? && PresentAndTruthy(Get(prior.value, "customIconVersion"))) ==> r["customIconVersion"] == Num(1)
    ensures prior.Some? ==> r.Keys == prior.value.Keys + {"iconId", "customIconVersion"}
    ensures prior.None? ==> r.Keys == {"iconId", "customIconVersion"}
    ensures prior.Some? ==> forall k :: k in prior.value && k != "iconId" && k != "customIconVersion" ==> r[k] == prior.value[k]
  {
    var version :=
      if prior.Some? && PresentAndTruthy(Get(prior.value, "customIconVersion"))
      then PlusOne(prior.value["customIconVersion"])
      else Num(1);
    Overlay(if prior.Some? then prior.value else map[], map["iconId" := Str(fileName), "customIconVersion" := version])
  }

  /** The settings of a service, if the caller owns one with this id. */
  function OwnedSettings(rows: seq<Service>, id: string, userId: nat): Option<Object> {
    var first := FirstService(rows, id, userId);
    if first.Some? then Some(first.value.settings) else None
  }

  /** `{id, name: service?.name}`: `name` is left out when there is no row. */
  function IdAndName(id: string, row: Option<Service>): Object {
    if row.Some? then map["id" := Str(id), "name" := row.value.name] else map["id" := Str(id)]
  }

  /** The upload of the `icon` form file: the generated file name, whether the
      move into the uploads directory succeeded, and the upload's error. */
  datatype IconUpload = IconUpload(fileName: string, moved: bool, error: Value)

  /** The rows after an icon upload: the caller's rows with this id take the
      name of the first of them and the icon settings; all others are unchanged. */
  function IconRows(rows: seq<Service>, id: string, userId: nat, fileName: string): (r: seq<Service>)
    ensures |r| == |rows|
    ensures forall i :: 0 <= i < |rows| && !OwnedService(rows[i], id, userId) ==> r[i] == rows[i]
    ensures forall i :: 0 <= i < |rows| && OwnedService(rows[i], id, userId) ==>
      && FirstService(rows, id, userId).Some?
      && r[i] == rows[i].(name := FirstService(rows, id, userId).value.name,
                          settings := IconSettings(OwnedSettings(rows, id, userId), fileName))
  {
    var first := FirstService(rows, id, userId);
    var settings := IconSettings(OwnedSettings(rows, id, userId), fileName);
    UpdateOwned(rows, id, userId, (s: Service) => s.(name := if first.Some? then first.value.name else s.name, settings := settings))
  }

  /** What both branches of `edit` answer: exactly `id`, the row's `name` when
      there is a row, the given settings, `iconUrl` and `userId`; a setting
      replaces `id` or `name`, and `iconUrl` and `userId` replace any setting. */
  predicate ShowsEdit(shown: Object, id: string, row: Option<Service>, settings: Object,
                      iconUrl: string, userId: nat)
  {
    && shown.Keys == {"id", "iconUrl", "userId"} + (if row.Some? then {"name"} else {}) + settings.Keys
    && shown["iconUrl"] == Str(iconUrl)
    && shown["userId"] == Num(userId)
    && (forall k :: k in settings && k != "iconUrl" && k != "userId" ==> shown[k] == settings[k])
    && ("id" !in settings ==> shown["id"] == Str(id))
    && (row.Some? && "name" !in settings ==> shown["name"] == row.value.name)
  }

  /** `{id, name: service?.name, ...settings, iconUrl, userId}`. */
  function EditAnswer(id: string, row: Option<Service>, settings: Object, iconUrl: string,
                      userId: nat): (r: Object)
    ensures ShowsEdit(r, id, row, settings, iconUrl, userId)
  {
    var base := IdAndName(id, row);
    assert base.Keys == {"id"} + (if row.Some? then {"name"} else {});
    var fixed := map["iconUrl" := Str(iconUrl), "userId" := Num(userId)];
    assert fixed.Keys == {"iconUrl", "userId"};
    Overlay(Overlay(base, settings), fixed)
  }

  /** The icon branch of ServiceController.edit. */
  function EditIcon(store: Store, env: Env, userId: nat, id: string, upload: IconUpload): (o: Outcome)
    ensures !upload.moved ==> o == Outcome(store, Send(500, upload.error))
    ensures upload.moved ==>
      && o.store == store.(services := IconRows(store.services, id, userId, upload.fileName))
      && o.response == Send(200, Envelope(Payload(o.response), "updated"))
      && ShowsEdit(Payload(o.response), id, FirstService(store.services, id, userId),
                   IconSettings(OwnedSettings(store.services, id, userId), upload.fileName),
                   IconLink(env, upload.fileName), userId)
  {
    if !upload.moved then Outcome(store, Send(500, upload.error))
    else
      var shown := EditAnswer(id, FirstService(store.services, id, userId),
                              IconSettings(OwnedSettings(store.services, id, userId), upload.fileName),
                              IconLink(env, upload.fileName), userId);
      PayloadOfEnvelope(200, shown, "updated");
      Outcome(store.(services := IconRows(store.services, id, userId, upload.fileName)),
              Send(200, Envelope(shown, "updated")))
  }

  /** The settings `edit` stores: those of the caller's first row with this id
      (nothing when there is none) overlaid by the request data. */
  function MergedSettings(prior: Option<Object>, data: Object): (r: Object)
    ensures forall k :: k in data ==> k in r && r[k] == data[k]
    ensures prior.Some? ==> r.Keys == prior.value.Keys + data.Keys
    ensures prior.Some? ==> forall k :: k in prior.value && k !in data ==> r[k] == prior.value[k]
    ensures prior.None? ==> r == data
  {
    Overlay(if prior.Some? then prior.value else map[], data)
  }

  /** The rows after a settings edit: the caller's rows with this id take
      the request's name (when it has one) and the merged settings; all others
      are unchanged. */
  function MergedRows(rows: seq<Service>, id: string, userId: nat, data: Object): (r: seq<Service>)
    ensures |r| == |rows|
    ensures forall i :: 0 <= i < |rows| && !OwnedService(rows[i], id, userId) ==> r[i] == rows[i]
    ensures forall i :: 0 <= i < |rows| && OwnedService(rows[i], id, userId) ==>
      r[i] == rows[i].(name := if "name" in data then data["name"] else rows[i].name,
                       settings := MergedSettings(OwnedSettings(rows, id, userId), data))
  {
    var settings := MergedSettings(OwnedSettings(rows, id, userId), data);
    UpdateOwned(rows, id, userId,
      (s: Service) => s.(name := if "name" in data then data["name"] else s.name, settings := settings))
  }

  /** The settings-merge branch of ServiceController.edit. The name column
      takes `data.name` when the request has one; an absent name is not written.
      The answer's `iconUrl` is built from `settings.iconId` with no null fallback. */
  function EditSettings(store: Store, env: Env, userId: nat, id: string, data: Object): (o: Outcome)
    ensures o.store == store.(services := MergedRows(store.services, id, userId, data))
    ensures o.response == Send(200, Envelope(Payload(o.response), "updated"))
    ensures var settings := MergedSettings(OwnedSettings(store.services, id, userId), data);
      ShowsEdit(Payload(o.response), id, FirstService(MergedRows(store.services, id, userId, data), id, userId),
                settings, IconLink(env, Template(Get(settings, "iconId"))), userId)
  {
    var settings := MergedSettings(OwnedSettings(store.services, id, userId), data);
    var rows := MergedRows(store.services, id, userId, data);
    var shown := EditAnswer(id, FirstService(rows, id, userId), settings,
                            IconLink(env, Template(Get(settings, "iconId"))), userId);
    PayloadOfEnvelope(200, shown, "updated");
    Outcome(store.(services := rows), Send(200, Envelope(shown, "updated")))
  }

  /** After a settings edit, every listed service with the edited id shows
      the requested name and every requested field that is not a fixed field. */
  lemma {:induction false} EditThenList(store: Store, env: Env, userId: nat, id: string, data: Object)
    ensures var edited := EditSettings(store, env, userId, id, data).store;
      var owned := ServicesOf(edited.services, userId);
      forall i :: 0 <= i < |owned| && owned[i].serviceId == id ==>
        && var entry := Render(env, owned[i], userId);
        && ("name" in data ==> entry["name"] == data["name"])
        && (forall k :: k in data && k !in FixedKeys ==> k in entry && entry[k] == data[k])
  {
    MergedThenListed(store.services, env, userId, id, data);
  }

  /** The listing half of `EditThenList`, about the merged rows alone. */
  lemma {:induction false} MergedThenListed(rows: seq<Service>, env: Env, userId: nat, id: string, data: Object)
    ensures var owned := ServicesOf(MergedRows(rows, id, userId, data), userId);
      forall i :: 0 <= i < |owned| && owned[i].serviceId == id ==>
        && var entry := Render(env, owned[i], userId);
        && ("name" in data ==> entry["name"] == data["name"])
        && (forall k :: k in data && k !in FixedKeys ==> k in entry && entry[k] == data[k])
  {
    var merged := MergedRows(rows, id, userId, data);
    var owned := ServicesOf(merged, userId);
    forall i | 0 <= i < |owned| && owned[i].serviceId == id
      ensures "name" in data ==> Render(env, owned[i], userId)["name"] == data["name"]
      ensures forall k :: k in data && k !in FixedKeys ==>
        k in Render(env, owned[i], userId) && Render(env, owned[i], userId)[k] == data[k]
    {
      var row := owned[i];
      assert row in merged && row.userId == userId;
      var j :| 0 <= j < |merged| && merged[j] == row;
      assert OwnedService(rows[j], id, userId);
    }
  }

  /** ServiceController.edit: an icon upload when the request carries an
      `icon` file, a settings merge otherwise. */
  function Edit(store: Store, env: Env, auth: Option<nat>, id: string, data: Object,
                icon: Option<IconUpload>): (o: Outcome)
    ensures auth.None? ==> o == Outcome(store, InvalidToken)
    ensures auth.Some? && icon.Some? ==> o == EditIcon(store, env, auth.value, id, icon.value)
    ensures auth.Some? && icon.None? ==> o == EditSettings(store, env, auth.value, id, data)
  {
    if auth.None? then Outcome(store, InvalidToken)
    else if icon.Some? then EditIcon(store, env, auth.value, id, icon.value)
    else EditSettings(store, env, auth.value, id, data)
  }

  /** Two icon uploads on a service whose version is a positive number n
      leave version n + 2; on a service without one they leave version 2. */
  lemma IconVersionAfterTwoUploads(prior: Object, first: string, second: string)
    ensures var once := IconSettings(Some(prior), first);
      var twice := IconSettings(Some(once), second);
      && ("customIconVersion" in prior && prior["customIconVersion"].Num? && prior["customIconVersion"].n > 0 ==>
            twice["customIconVersion"] == Num(prior["customIconVersion"].n + 2))
      && ("customIconVersion" !in prior ==> twice["customIconVersion"] == Num(2))
  {
  }

  // ---------------------------------------------------------------------------
  // Reorder

  /** What `reorder` makes of row i: a row of the caller named in the request
      gets the settings of the caller's first row with that id, with `order`
      set to the requested value; every other row is left alone. */
  function Reordered(rows: seq<Service>, userId: nat, data: Object, i: nat): (r: Service)
    requires i < |rows|
    ensures r.serviceId == rows[i].serviceId && r.userId == rows[i].userId
    ensures r.name == rows[i].name && r.recipeId == rows[i].recipeId
    ensures !(rows[i].userId == userId && rows[i].serviceId in data) ==> r == rows[i]
    ensures rows[i].userId == userId && rows[i].serviceId in data ==>
      && var first := FirstService(rows, rows[i].serviceId, userId);
      && first.Some?
      && r.settings.Keys == first.value.settings.Keys + {"order"}
      && r.settings["order"] == data[rows[i].serviceId]
      && forall k :: k in first.value.settings && k != "order" ==> r.settings[k] == first.value.settings[k]
  {
    var row := rows[i];
    if row.userId == userId && row.serviceId in data then
      var first := FirstService(rows, row.serviceId, userId);
      assert OwnedService(rows[i], row.serviceId, userId);
      row.(settings := Overlay(first.value.settings, map["order" := data[row.serviceId]]))
    else row
  }

  /** Rows that agree on ids and owners, and entirely on the rows with id `id`,
      have the same first owned row with that id. */
  lemma {:induction false} FirstServiceUnaffected(a: seq<Service>, b: seq<Service>, id: string, userId: nat)
    requires |a| == |b|
    requires forall i :: 0 <= i < |a| ==> a[i].serviceId == b[i].serviceId && a[i].userId == b[i].userId
    requires forall i :: 0 <= i < |a| && a[i].serviceId == id ==> a[i] == b[i]
    ensures FirstService(a, id, userId) == FirstService(b, id, userId)
  {
    if a != [] {
      FirstServiceUnaffected(a[1..], b[1..], id, userId);
    }
  }

  /** ServiceController.reorder: for each key of the request, sets `order` in
      the settings of the caller's services with that id, then answers like
      `list`. Keys are taken in any order: each touches only its own rows. */
  method Reorder(store: Store, env: Env, userId: nat, data: Object) returns (o: Outcome)
    ensures o.store == store.(services := o.store.services)
    ensures |o.store.services| == |store.services|
    ensures forall i :: 0 <= i < |store.services| ==> o.store.services[i] == Reordered(store.services, userId, data, i)
    ensures o.response == Send(200, Arr(RenderAll(env, ServicesOf(o.store.services, userId), userId)))
  {
    var rows := store.services;
    var pending := data.Keys;
    while pending != {}
      invariant pending <= data.Keys
      invariant |rows| == |store.services|
      invariant forall i :: 0 <= i < |rows| ==>
        rows[i] == if store.services[i].serviceId in pending then store.services[i] else Reordered(store.services, userId, data, i)
      decreases pending
    {
      var key :| key in pending;
      FirstServiceUnaffected(rows, store.services, key, userId);
      var first := FirstService(rows, key, userId);
      var settings := Overlay(if first.Some? then first.value.settings else map[], map["order" := data[key]]);
      rows := UpdateOwned(rows, key, userId, (s: Service) => s.(settings := settings));
      pending := pending - {key};
    }
    var after := store.(services := rows);
    o := Outcome(after, Send(200, Arr(RenderAll(env, ServicesOf(rows, userId), userId))));
  }

  /** Reordering with the same request twice is the same as once. */
  lemma ReorderIdempotent(rows: seq<Service>, userId: nat, data: Object)
    ensures var once := seq(|rows|, i requires 0 <= i < |rows| => Reordered(rows, userId, data, i));
      forall i :: 0 <= i < |rows| ==> Reordered(once, userId, data, i) == once[i]
  {
    var once := seq(|rows|, i requires 0 <= i < |rows| => Reordered(rows, userId, data, i));
    forall i | 0 <= i < |rows|
      ensures Reordered(once, userId, data, i) == once[i]
    {
      var row := rows[i];
      if row.userId == userId && row.serviceId in data {
        var first := FirstService(rows, row.serviceId, userId);
        assert OwnedService(rows[i], row.serviceId, userId);
        var firstOnce := FirstService(once, row.serviceId, userId);
        assert OwnedService(once[i], row.serviceId, userId);
        assert firstOnce.value.settings["order"] == data[row.serviceId] by {
          var j :| 0 <= j < |once| && once[j] == firstOnce.value;
        }
      }
    }
  }

  // ---------------------------------------------------------------------------
  // Delete

  /** ServiceController.delete: removes exactly the caller's rows with this id. */
  function Delete(store: Store, userId: nat, id: string): (o: Outcome)
    ensures o.store == store.(services := Keep(store.services, (s: Service) => !OwnedService(s, id, userId)))
    ensures forall s :: multiset(o.store.services)[s] == if OwnedService(s, id, userId) then 0 else multiset(store.services)[s]
    ensures forall i :: 0 <= i < |o.store.services| ==>
      o.store.services[i] in store.services && !OwnedService(o.store.services[i], id, userId)
    ensures forall i :: 0 <= i < |store.services| && !OwnedService(store.services[i], id, userId) ==>
      store.services[i] in o.store.services
    ensures o.response == Send(200, Obj(map["message" := Str("Sucessfully deleted service"), "status" := Num(200)]))
  {
    var rows := Keep(store.services, (s: Service) => !OwnedService(s, id, userId));
    KeepCounts(store.services, (s: Service) => !OwnedService(s, id, userId));
    Outcome(store.(services := rows),
            Send(200, Obj(map["message" := Str("Sucessfully deleted service"), "status" := Num(200)])))
  }

  /** Deleting the service `create` just made restores the store. */
  lemma {:induction false} DeleteUndoesCreate(store: Store, userId: nat, data: Object, candidates: seq<string>)
    requires !Create(store, Some(userId), [], data, candidates).response.Diverges?
    ensures var created := Create(store, Some(userId), [], data, candidates).store;
      Delete(created, userId, created.services[|store.services|].serviceId).store == store
  {
    var created := Create(store, Some(userId), [], data, candidates).store;
    var row := created.services[|store.services|];
    var p := (s: Service) => !OwnedService(s, row.serviceId, userId);
    forall i | 0 <= i < |store.services|
      ensures p(store.services[i])
    {
      assert store.services[i].serviceId in ServiceIds(store.services);
    }
    KeepEverything(store.services, p);
    KeepAppend(store.services, row, p);
  }
}

=== FILE: store.dfy ===
/**
 The relational store behind the controllers, as immutable sequences of rows in
 insertion order, with the owner-scoped queries the controllers issue.
 */
module Store {
  import opened Js

  /** A row of `users`. `settings` is the parsed settings column (Null for SQL NULL). */
  datatype User = User(id: nat, email: Value, password: Value, username: Value, lastname: Value, settings: Value)

  /** A row of `services`. `serviceId` is the generated external id, not the primary key. */
  datatype Service = Service(userId: nat, serviceId: string, name: Value, recipeId: Value, settings: Object)

  /** A row of `workspaces`. `services` is the parsed services column. */
  datatype Workspace = Workspace(userId: nat, workspaceId: string, name: Value, order: Value, services: Value, data: Object)

  /** A row of `recipes` (custom recipes only). */
  datatype Recipe = Recipe(recipeId: Value, name: Value, data: Object)

  /** The database. `nextUserId` is the auto-increment counter of `users`. */
  datatype Store = Store(
    users: seq<User>,
    services: seq<Service>,
    workspaces: seq<Workspace>,
    recipes: seq<Recipe>,
    nextUserId: nat)

  /** The rows satisfying `p`, in their original order. */
  function Keep<T>(rows: seq<T>, p: T -> bool): (r: seq<T>)
    ensures |r| <= |rows|
    ensures forall i :: 0 <= i < |r| ==> r[i] in rows && p(r[i])
    ensures forall i :: 0 <= i < |rows| && p(rows[i]) ==> rows[i] in r
  {
    if rows == [] then []
    else (if p(rows[0]) then [rows[0]] else []) + Keep(rows[1..], p)
  }

  /** Each row satisfying `p` is kept as often as it occurs, and no other row is kept. */
  lemma {:induction false} KeepCounts<T(!new)>(rows: seq<T>, p: T -> bool)
    ensures forall x :: multiset(Keep(rows, p))[x] == if p(x) then multiset(rows)[x] else 0
  {
    if rows != [] {
      assert rows == [rows[0]] + rows[1..];
      KeepCounts(rows[1..], p);
    }
  }

  /** Filtering distributes over concatenation, so the kept rows stay in
      their original order. */
  lemma {:induction false} KeepConcat<T(!new)>(a: seq<T>, b: seq<T>, p: T -> bool)
    ensures Keep(a + b, p) == Keep(a, p) + Keep(b, p)
  {
    if a == [] {
      assert a + b == b;
    } else {
      var head := if p(a[0]) then [a[0]] else [];
      assert (a + b)[0] == a[0];
      assert (a + b)[1..] == a[1..] + b;
      KeepConcat(a[1..], b, p);
      assert Keep(a + b, p) == head + (Keep(a[1..], p) + Keep(b, p));
    }
  }

  lemma KeepAppend<T(!new)>(rows: seq<T>, x: T, p: T -> bool)
    ensures Keep(rows + [x], p) == Keep(rows, p) + (if p(x) then [x] else [])
  {
    KeepConcat(rows, [x], p);
    assert [x][1..] == [];
  }

  lemma {:induction false} KeepEverything<T(!new)>(rows: seq<T>, p: T -> bool)
    requires forall i :: 0 <= i < |rows| ==> p(rows[i])
    ensures Keep(rows, p) == rows
  {
    if rows != [] {
      KeepEverything(rows[1..], p);
    }
  }

  // ---------------------------------------------------------------------------
  // Services

  function ServiceIds(rows: seq<Service>): set<string> {
    set i | 0 <= i < |rows| :: rows[i].serviceId
  }

  lemma ServiceIdsPrepend(row: Service, rows: seq<Service>)
    ensures ServiceIds([row] + rows) == {row.serviceId} + ServiceIds(rows)
  {
    var all := [row] + rows;
    forall x | x in ServiceIds(all)
      ensures x in {row.serviceId} + ServiceIds(rows)
    {
      var i :| 0 <= i < |all| && all[i].serviceId == x;
      if i > 0 { assert all[i] == rows[i - 1]; }
    }
    forall x | x in ServiceIds(rows)
      ensures x in ServiceIds(all)
    {
      var i :| 0 <= i < |rows| && rows[i].serviceId == x;
      assert rows[i] == all[i + 1];
    }
    assert all[0] == row;
  }

  /** `.where("serviceId", id).where("userId", userId)` */
  predicate OwnedService(row: Service, id: string, userId: nat) {
    row.serviceId == id && row.userId == userId
  }

  /** `.where("serviceId", id).where("userId", userId).first()` */
  function FirstService(rows: seq<Service>, id: string, userId: nat): (r: Option<Service>)
    ensures r.Some? ==> r.value in rows && OwnedService(r.value, id, userId)
    ensures r.None? <==> forall i :: 0 <= i < |rows| ==> !OwnedService(rows[i], id, userId)
  {
    if rows == [] then None
    else if OwnedService(rows[0], id, userId) then Some(rows[0])
    else FirstService(rows[1..], id, userId)
  }

  /** `auth.user.services()`: the caller's services in store order. */
  function ServicesOf(rows: seq<Service>, userId: nat): (r: seq<Service>)
    ensures forall s :: s in r <==> s in rows && s.userId == userId
  {
    Keep(rows, (s: Service) => s.userId == userId)
  }

  // ---------------------------------------------------------------------------
  // Workspaces

  function WorkspaceIds(rows: seq<Workspace>): set<string> {
    set i | 0 <= i < |rows| :: rows[i].workspaceId
  }

  lemma WorkspaceIdsPrepend(row: Workspace, rows: seq<Workspace>)
    ensures WorkspaceIds([row] + rows) == {row.workspaceId} + WorkspaceIds(rows)
  {
    var all := [row] + rows;
    forall x | x in WorkspaceIds(all)
      ensures x in {row.workspaceId} + WorkspaceIds(rows)
    {
      var i :| 0 <= i < |all| && all[i].workspaceId == x;
      if i > 0 { assert all[i] == rows[i - 1]; }
    }
    forall x | x in WorkspaceIds(rows)
      ensures x in WorkspaceIds(all)
    {
      var i :| 0 <= i < |rows| && rows[i].workspaceId == x;
      assert rows[i] == all[i + 1];
    }
    assert all[0] == row;
  }

  predicate OwnedWorkspace(row: Workspace, id: string, userId: nat) {
    row.workspaceId == id && row.userId == userId
  }

  function FirstWorkspace(rows: seq<Workspace>, id: string, userId: nat): (r: Option<Workspace>)
    ensures r.Some? ==> r.value in rows && OwnedWorkspace(r.value, id, userId)
    ensures r.None? <==> forall i :: 0 <= i < |rows| ==> !OwnedWorkspace(rows[i], id, userId)
  {
    if rows == [] then None
    else if OwnedWorkspace(rows[0], id, userId) then Some(rows[0])
    else FirstWorkspace(rows[1..], id, userId)
  }

  /** `auth.user.workspaces()`: the caller's workspaces in store order. */
  function WorkspacesOf(rows: seq<Workspace>, userId: nat): (r: seq<Workspace>)
    ensures forall w :: w in r <==> w in rows && w.userId == userId
  {
    Keep(rows, (w: Workspace) => w.userId == userId)
  }

  // ---------------------------------------------------------------------------
  // Users

  /** The authenticated user: the first row with this primary key. */
  function FindUser(users: seq<User>, id: nat): (r: Option<User>)
    ensures r.Some? ==> r.value in users && r.value.id == id
    ensures r.None? <==> forall i :: 0 <= i < |users| ==> users[i].id != id
  {
    if users == [] then None
    else if users[0].id == id then Some(users[0])
    else FindUser(users[1..], id)
  }

  /** The unique index on `users.email`: a NULL email never collides. */
  predicate EmailTaken(users: seq<User>, email: Value) {
    !email.Null? && exists i :: 0 <= i < |users| && users[i].email == email
  }

  /** `lastname` is NOT NULL with default "": an omitted value takes the
      default, an explicit null is rejected (None). */
  function LastnameColumn(o: Option<Value>): (r: Option<Value>)
    ensures o.None? ==> r == Some(Str(""))
    ensures r.None? <==> o == Some(Null)
  {
    match o
    case None => Some(Str(""))
    case Some(Null) => None
    case Some(v) => Some(v)
  }

  /** `User.create({email, password, username, lastname})`: None when the
      insert violates a constraint. The new row gets the next auto-increment id. */
  function InsertUser(store: Store, email: Option<Value>, password: Value, username: Option<Value>,
                      lastname: Option<Value>): (r: Option<Store>)
    ensures r.None? <==> EmailTaken(store.users, OrNull(email)) || lastname == Some(Null)
    ensures r.Some? ==>
      && r.value.services == store.services
      && r.value.workspaces == store.workspaces
      && r.value.recipes == store.recipes
      && |r.value.users| == |store.users| + 1
      && r.value.users[..|store.users|] == store.users
      && r.value.users[|store.users|].id == store.nextUserId
      && r.value.users[|store.users|].email == OrNull(email)
      && r.value.users[|store.users|].password == password
      && r.value.users[|store.users|].username == OrNull(username)
      && r.value.users[|store.users|].lastname == LastnameColumn(lastname).value
      && r.value.users[|store.users|].settings == Null
      && r.value.nextUserId == store.nextUserId + 1
  {
    var column := LastnameColumn(lastname);
    if EmailTaken(store.users, OrNull(email)) || column.None? then None
    else
      var user := User(store.nextUserId, OrNull(email), password, OrNull(username), column.value, Null);
      Some(store.(users := store.users + [user], nextUserId := store.nextUserId + 1))
  }
}

=== FILE: users.dfy ===
/**
 The account actions of the user controller other than the import: signup,
 the profile (`me`) and the profile settings update (`updateMe`). A profile is
 a fixed set of fields overlaid by whatever the user stored in `settings`.
 */
module Users {
  import opened Js
  import opened Store
  import opened Http

  /** The constant account id every profile reports. */
  const ProfileId: string := "82c1cf9d-ab58-4da2-b55e-aaa41d2142d8"

  const ProfileKeys: set<string> :=
    {"accountType", "beta", "donor", "email", "emailValidated", "features", "firstname", "id",
     "isPremium", "isSubscriptionOwner", "lastname", "locale"}

  /** The fixed profile fields, before the stored settings are spread over them. */
  function Profile(user: User): (r: Object)
    ensures r.Keys == ProfileKeys
    ensures r["email"] == user.email && r["firstname"] == user.username && r["lastname"] == user.lastname
    ensures r["id"] == Str(ProfileId) && r["locale"] == Str("en-US")
    ensures r["accountType"] == Str("individual") && r["isPremium"] == Bool(true)
  {
    map["accountType" := Str("individual"), "beta" := Bool(false), "donor" := Obj(map[]),
        "email" := user.email, "emailValidated" := Bool(true), "features" := Obj(map[]),
        "firstname" := user.username, "id" := Str(ProfileId), "isPremium" := Bool(true),
        "isSubscriptionOwner" := Bool(true), "lastname" := user.lastname, "locale" := Str("en-US")]
  }

  /** The profile overlaid by a settings object: settings win on every shared key. */
  function Rendered(user: User, settings: Object): (r: Object)
    ensures r.Keys == ProfileKeys + settings.Keys
    ensures forall k :: k in settings ==> r[k] == settings[k]
    ensures forall k :: k in ProfileKeys && k !in settings ==> r[k] == Profile(user)[k]
  {
    Overlay(Profile(user), settings)
  }

  /** UserController.me. `auth` is the id of the authenticated user; when
      authentication fails the action goes on to read `auth.user.settings`
      of an absent user and throws. */
  function Me(store: Store, auth: Option<nat>): (o: Outcome)
    ensures o.store == store
    ensures auth.None? ==> o.response == Fault
    ensures auth.Some? && FindUser(store.users, auth.value).Some? ==>
      var user := FindUser(store.users, auth.value).value;
      o.response == Send(200, Obj(Rendered(user, Spread(user.settings))))
  {
    if auth.None? then Outcome(store, Fault)
    else match FindUser(store.users, auth.value)
      case None => Outcome(store, Fault)
      case Some(user) => Outcome(store, Send(200, Obj(Rendered(user, Spread(user.settings)))))
  }

  /** A null or empty settings column leaves the fixed profile as it is. */
  lemma NullSettingsRenderProfile(store: Store, id: nat)
    requires FindUser(store.users, id).Some? && !Truthy(FindUser(store.users, id).value.settings)
    ensures Me(store, Some(id)).response == Send(200, Obj(Profile(FindUser(store.users, id).value)))
  {
    var user := FindUser(store.users, id).value;
    assert Rendered(user, Spread(user.settings)) == Profile(user);
  }

  /** The settings `updateMe` stores: the stored settings overlaid by the request. */
  function NewSettings(stored: Value, request: Object): (r: Object)
    ensures r.Keys == Spread(stored).Keys + request.Keys
    ensures forall k :: k in request ==> r[k] == request[k]
    ensures forall k :: k in Spread(stored) && k !in request ==> r[k] == Spread(stored)[k]
  {
    Overlay(Spread(stored), request)
  }

  /** The users table after saving new settings for the user with this id. */
  function SavedSettings(users: seq<User>, id: nat, settings: Object): (r: seq<User>)
    ensures |r| == |users|
    ensures forall i :: 0 <= i < |users| ==>
      r[i] == if users[i].id == id then users[i].(settings := Obj(settings)) else users[i]
  {
    seq(|users|, i requires 0 <= i < |users| =>
      if users[i].id == id then users[i].(settings := Obj(settings)) else users[i])
  }

  /** UserController.updateMe: merges the request into the stored settings,
      saves them and answers with the profile rendered from the new settings. */
  function UpdateMe(store: Store, auth: Option<nat>, request: Object): (o: Outcome)
    ensures auth.None? || FindUser(store.users, auth.value).None? ==> o == Outcome(store, Fault)
    ensures auth.Some? && FindUser(store.users, auth.value).Some? ==>
      var user := FindUser(store.users, auth.value).value;
      var settings := NewSettings(user.settings, request);
      && o.store == store.(users := SavedSettings(store.users, auth.value, settings))
      && o.response == Send(200, Envelope(Rendered(user, settings), "data-updated"))
  {
    if auth.None? then Outcome(store, Fault)
    else match FindUser(store.users, auth.value)
      case None => Outcome(store, Fault)
      case Some(user) =>
        var settings := NewSettings(user.settings, request);
        Outcome(store.(users := SavedSettings(store.users, auth.value, settings)),
                Send(200, Envelope(Rendered(user, settings), "data-updated")))
  }

  lemma {:induction false} FindSaved(users: seq<User>, id: nat, settings: Object)
    requires FindUser(users, id).Some?
    ensures FindUser(SavedSettings(users, id, settings), id) == Some(FindUser(users, id).value.(settings := Obj(settings)))
  {
    if users[0].id != id {
      assert SavedSettings(users, id, settings)[1..] == SavedSettings(users[1..], id, settings);
      FindSaved(users[1..], id, settings);
    }
  }

  /** `me` after `updateMe` shows exactly the data `updateMe` answered with. */
  lemma {:induction false} MeAfterUpdateMe(store: Store, id: nat, request: Object)
    requires FindUser(store.users, id).Some?
    ensures var updated := UpdateMe(store, Some(id), request);
      Me(updated.store, Some(id)).response == Send(200, Obj(Payload(updated.response)))
  {
    var user := FindUser(store.users, id).value;
    var settings := NewSettings(user.settings, request);
    FindSaved(store.users, id, settings);
    var saved := user.(settings := Obj(settings));
    var updated := UpdateMe(store, Some(id), request);
    assert updated.response == Send(200, Envelope(Rendered(user, settings), "data-updated"));
    PayloadOfEnvelope(200, Rendered(user, settings), "data-updated");
    assert FindUser(updated.store.users, id) == Some(saved);
    assert Spread(saved.settings) == settings;
    ProfileIgnoresSettings(user, Obj(settings));
    assert Rendered(saved, settings) == Rendered(user, settings);
    assert Me(updated.store, Some(id)).response == Send(200, Obj(Rendered(saved, settings)));
  }

  /** The fixed profile fields do not depend on the settings column. */
  lemma ProfileIgnoresSettings(user: User, settings: Value)
    ensures Profile(user.(settings := settings)) == Profile(user)
  {
  }

  /** Sending the same update twice leaves the same store and the same answer
      as sending it once. */
  lemma {:induction false} UpdateMeIdempotent(store: Store, id: nat, request: Object)
    requires FindUser(store.users, id).Some?
    ensures var once := UpdateMe(store, Some(id), request);
      UpdateMe(once.store, Some(id), request) == once
  {
    var user := FindUser(store.users, id).value;
    var settings := NewSettings(user.settings, request);
    FindSaved(store.users, id, settings);
    assert NewSettings(Obj(settings), request) == settings;
    var saved := SavedSettings(store.users, id, settings);
    assert SavedSettings(saved, id, settings) == saved;
  }

  const RegistrationDisabledBody: Value :=
    Obj(map["message" := Str("Registration is disabled on this server"), "status" := Num(401)])
  const EmailInUseBody: Value :=
    Obj(map["message" := Str("E-Mail Address already in use"), "status" := Num(401)])

  /** UserController.signup. `token` is the api token `auth.generate` issues. */
  function Signup(store: Store, env: Env, violations: seq<Violation>, data: Object, token: string): (o: Outcome)
    ensures RegistrationDisabled(env) ==> o == Outcome(store, Send(401, RegistrationDisabledBody))
    ensures !RegistrationDisabled(env) && violations != [] ==> o == Outcome(store, BadRequest(violations))
    ensures !RegistrationDisabled(env) && violations == [] ==>
      (o.store == store <==> EmailTaken(store.users, OrNull(Get(data, "email"))) || Get(data, "lastname") == Some(Null))
    ensures o.store == store && !RegistrationDisabled(env) && violations == [] ==>
      o.response == Send(401, EmailInUseBody)
    ensures o.store != store ==>
      && Some(o.store) == InsertUser(store, Get(data, "email"), OrNull(Get(data, "password")), Get(data, "firstname"),
                                     Get(data, "lastname"))
      && |o.store.users| == |store.users| + 1
      && var user := o.store.users[|store.users|];
      && user.email == OrNull(Get(data, "email"))
      && user.password == OrNull(Get(data, "password"))
      && user.username == OrNull(Get(data, "firstname"))
      && (Get(data, "lastname").Some? ==> user.lastname == data["lastname"])
      && o.response == Send(200, Obj(map["message" := Str("Successfully created account"), "token" := Str(token)]))
  {
    if RegistrationDisabled(env) then Outcome(store, Send(401, RegistrationDisabledBody))
    else if violations != [] then Outcome(store, BadRequest(violations))
    else match InsertUser(store, Get(data, "email"), OrNull(Get(data, "password")), Get(data, "firstname"), Get(data, "lastname"))
      case None => Outcome(store, Send(401, EmailInUseBody))
      case Some(created) =>
        assert |created.users| != |store.users|;
        Outcome(created, Send(200, Obj(map["message" := Str("Successfully created account"), "token" := Str(token)])))
  }

  /** A second signup with the same address is refused and changes nothing. */
  lemma {:induction false} SignupTwiceRefused(store: Store, env: Env, data: Object, token1: string, token2: string)
    requires !RegistrationDisabled(env)
    requires "email" in data && !data["email"].Null?
    requires Signup(store, env, [], data, token1).store != store
    ensures var first := Signup(store, env, [], data, token1).store;
      Signup(first, env, [], data, token2) == Outcome(first, Send(401, EmailInUseBody))
  {
    var first := Signup(store, env, [], data, token1).store;
    assert first.users[|store.users|].email == data["email"];
    assert EmailTaken(first.users, data["email"]);
  }
}

=== FILE: workspaces.dfy ===
/**
 The workspace actions: create, edit, delete and list. Every query is scoped by
 the caller's user id; a new workspace is ordered after the caller's existing
 ones by counting them.
 */
module Workspaces {
  import opened Js
  import opened Store
  import opened Http
  import opened FreshIds

  /** The row `create` inserts. */
  function NewWorkspace(userId: nat, id: string, order: nat, data: Object): Workspace {
    Workspace(userId, id, OrNull(Get(data, "name")), Num(order), Arr([]), data)
  }

  /** WorkspaceController.create: a fresh workspace id, ordered after the
      caller's existing workspaces, with no services and the request as data. */
  function Create(store: Store, auth: Option<nat>, violations: seq<Violation>, data: Object,
                  candidates: seq<string>): (o: Outcome)
    ensures auth.None? ==> o == Outcome(store, InvalidToken)
    ensures auth.Some? && violations != [] ==> o == Outcome(store, BadRequest(violations))
    ensures auth.Some? && violations == [] ==>
      (o.response.Diverges? <==> forall j :: 0 <= j < |candidates| ==> candidates[j] in WorkspaceIds(store.workspaces))
    ensures o.response.Diverges? ==> o.store == store
    ensures auth.Some? && violations == [] && !o.response.Diverges? ==>
      && |o.store.workspaces| == |store.workspaces| + 1
      && var row := o.store.workspaces[|store.workspaces|];
      && o.store == store.(workspaces := store.workspaces + [row])
      && row.workspaceId !in WorkspaceIds(store.workspaces)
      && row.workspaceId in candidates
      && row.userId == auth.value
      && row.order == Num(|WorkspacesOf(store.workspaces, auth.value)|)
      && row.services == Arr([])
      && row.data == data
      && o.response.Send? && o.response.body.Obj?
      && var shown := o.response.body.fields;
      && shown.Keys == {"userId", "id", "order", "workspaces"} + (if "name" in data then {"name"} else {})
      && shown["userId"] == Num(auth.value)
      && shown["id"] == Str(row.workspaceId)
      && shown["order"] == row.order
      && shown["workspaces"] == Arr([])
      && ("name" in data ==> shown["name"] == data["name"])
  {
    if auth.None? then Outcome(store, InvalidToken)
    else if violations != [] then Outcome(store, BadRequest(violations))
    else
      match Draw(candidates, WorkspaceIds(store.workspaces))
      case None => Outcome(store, Diverges)
      case Some(drawn) =>
        var order := |WorkspacesOf(store.workspaces, auth.value)|;
        var row := NewWorkspace(auth.value, drawn.id, order, data);
        var shown := map["userId" := Num(auth.value), "id" := Str(drawn.id), "order" := Num(order), "workspaces" := Arr([])];
        var shown := WithDefined(shown, "name", Get(data, "name"));
        Outcome(store.(workspaces := store.workspaces + [row]), Send(200, Obj(shown)))
  }

  /** What `edit` makes of a row: name and services replaced when the request
      has them (an undefined value is not written), everything else kept. */
  function Edited(row: Workspace, data: Object): (r: Workspace)
    ensures r.userId == row.userId && r.workspaceId == row.workspaceId
    ensures r.order == row.order && r.data == row.data
    ensures r.name == (if "name" in data then data["name"] else row.name)
    ensures r.services == (if "services" in data then data["services"] else row.services)
  {
    row.(name := if "name" in data then data["name"] else row.name,
         services := if "services" in data then data["services"] else row.services)
  }

  /** The rows after `edit`: the caller's rows with this id edited, all others unchanged. */
  function EditedRows(rows: seq<Workspace>, id: string, userId: nat, data: Object): (r: seq<Workspace>)
    ensures |r| == |rows|
    ensures forall i :: 0 <= i < |rows| ==>
      r[i] == if OwnedWorkspace(rows[i], id, userId) then Edited(rows[i], data) else rows[i]
  {
    seq(|rows|, i requires 0 <= i < |rows| => if OwnedWorkspace(rows[i], id, userId) then Edited(rows[i], data) else rows[i])
  }

  /** WorkspaceController.edit: replaces name and services of the caller's
      workspace wholesale and answers with the request's name and services. */
  function Edit(store: Store, auth: Option<nat>, violations: seq<Violation>, id: string, data: Object): (o: Outcome)
    ensures auth.None? ==> o == Outcome(store, InvalidToken)
    ensures auth.Some? && violations != [] ==> o == Outcome(store, BadRequest(violations))
    ensures auth.Some? && violations == [] ==>
      && o.store == store.(workspaces := EditedRows(store.workspaces, id, auth.value, data))
      && o.response.Send? && o.response.body.Obj?
      && o.response == Send(200, o.response.body)
      && var shown := o.response.body.fields;
      && var after := FirstWorkspace(EditedRows(store.workspaces, id, auth.value, data), id, auth.value);
      && shown.Keys == {"userId"} + (if "services" in data then {"services"} else {})
           + (if "name" in data then {"name"} else {}) + (if after.Some? then {"id", "order"} else {})
      && ("services" in data ==> shown["services"] == data["services"])
      && ("name" in data ==> shown["name"] == data["name"])
      && shown["userId"] == Num(auth.value)
      && (after.Some? ==> shown["id"] == Str(after.value.workspaceId) && shown["order"] == after.value.order)
  {
    if auth.None? then Outcome(store, InvalidToken)
    else if violations != [] then Outcome(store, BadRequest(violations))
    else
      var rows := EditedRows(store.workspaces, id, auth.value, data);
      Outcome(store.(workspaces := rows), Send(200, Obj(EditAnswer(auth.value, data, FirstWorkspace(rows, id, auth.value)))))
  }

  /** `{id, name: data.name, order, services: data.services, userId}` with
      `after` the re-read row: undefined members are left out. */
  function EditAnswer(userId: nat, data: Object, after: Option<Workspace>): (shown: Object)
    ensures shown.Keys == {"userId"} + (if "services" in data then {"services"} else {})
      + (if "name" in data then {"name"} else {}) + (if after.Some? then {"id", "order"} else {})
    ensures "services" in data ==> shown["services"] == data["services"]
    ensures "name" in data ==> shown["name"] == data["name"]
    ensures shown["userId"] == Num(userId)
    ensures after.Some? ==> shown["id"] == Str(after.value.workspaceId) && shown["order"] == after.value.order
  {
    var shown := map["userId" := Num(userId)];
    var shown := WithDefined(shown, "services", Get(data, "services"));
    var shown := WithDefined(shown, "order", if after.Some? then Some(after.value.order) else None);
    var shown := WithDefined(shown, "name", Get(data, "name"));
    WithDefined(shown, "id", if after.Some? then Some(Str(after.value.workspaceId)) else None)
  }

  /** WorkspaceController.delete: removes exactly the caller's rows with this id. */
  function Delete(store: Store, auth: Option<nat>, violations: seq<Violation>, id: string): (o: Outcome)
    ensures auth.None? ==> o == Outcome(store, InvalidToken)
    ensures auth.Some? && violations != [] ==> o == Outcome(store, BadRequest(violations))
    ensures auth.Some? && violations == [] ==>
      && o.store == store.(workspaces := Keep(store.workspaces, (w: Workspace) => !OwnedWorkspace(w, id, auth.value)))
      && (forall w :: multiset(o.store.workspaces)[w] ==
            if OwnedWorkspace(w, id, auth.value) then 0 else multiset(store.workspaces)[w])
      && (forall i :: 0 <= i < |o.store.workspaces| ==>
            o.store.workspaces[i] in store.workspaces && !OwnedWorkspace(o.store.workspaces[i], id, auth.value))
      && (forall i :: 0 <= i < |store.workspaces| && !OwnedWorkspace(store.workspaces[i], id, auth.value) ==>
            store.workspaces[i] in o.store.workspaces)
      && o.response == Send(200, Obj(map["message" := Str("Successfully deleted workspace")]))
  {
    if auth.None? then Outcome(store, InvalidToken)
    else if violations != [] then Outcome(store, BadRequest(violations))
    else
      var rows := Keep(store.workspaces, (w: Workspace) => !OwnedWorkspace(w, id, auth.value));
      KeepCounts(store.workspaces, (w: Workspace) => !OwnedWorkspace(w, id, auth.value));
      Outcome(store.(workspaces := rows), Send(200, Obj(map["message" := Str("Successfully deleted workspace")])))
  }

  /** One workspace as `list` shows it. */
  function Render(row: Workspace, userId: nat): Object {
    map["id" := Str(row.workspaceId), "name" := row.name, "order" := row.order, "services" := row.services,
        "userId" := Num(userId)]
  }

  /** WorkspaceController.list: the caller's workspaces in store order. */
  function List(store: Store, auth: Option<nat>): (o: Outcome)
    ensures o.store == store
    ensures auth.None? ==> o.response == InvalidToken
    ensures auth.Some? ==>
      && o.response.Send? && o.response.body.Arr?
      && var shown := o.response.body.items;
      && var owned := WorkspacesOf(store.workspaces, auth.value);
      && |shown| == |owned|
      && forall i :: 0 <= i < |owned| ==>
           && shown[i].Obj?
           && shown[i].fields.Keys == {"id", "name", "order", "services", "userId"}
           && shown[i].fields["id"] == Str(owned[i].workspaceId)
           && shown[i].fields["name"] == owned[i].name
           && shown[i].fields["order"] == owned[i].order
           && shown[i].fields["services"] == owned[i].services
           && shown[i].fields["userId"] == Num(auth.value)
  {
    if auth.None? then Outcome(store, InvalidToken)
    else
      var owned := WorkspacesOf(store.workspaces, auth.value);
      Outcome(store, Send(200, Arr(seq(|owned|, i requires 0 <= i < |owned| => Obj(Render(owned[i], auth.value))))))
  }

  /** Right after `create`, the new workspace is listed last and its `order`
      is its position in the list. */
  lemma {:induction false} CreateThenList(store: Store, userId: nat, data: Object, candidates: seq<string>)
    requires !Create(store, Some(userId), [], data, candidates).response.Diverges?
    ensures var created := Create(store, Some(userId), [], data, candidates).store;
      var shown := List(created, Some(userId)).response.body.items;
      && |shown| > 0
      && shown[|shown| - 1].fields["order"] == Num(|shown| - 1)
      && shown[|shown| - 1].fields["services"] == Arr([])
  {
    var created := Create(store, Some(userId), [], data, candidates).store;
    AppendedThenListed(store, userId, created.workspaces[|store.workspaces|]);
  }

  /** The listing half of `CreateThenList`, about the appended row alone. */
  lemma {:induction false} AppendedThenListed(store: Store, userId: nat, row: Workspace)
    requires row.userId == userId && row.order == Num(|WorkspacesOf(store.workspaces, userId)|)
    requires row.services == Arr([])
    ensures var shown := List(store.(workspaces := store.workspaces + [row]), Some(userId)).response.body.items;
      && |shown| > 0
      && shown[|shown| - 1].fields["order"] == Num(|shown| - 1)
      && shown[|shown| - 1].fields["services"] == Arr([])
  {
    KeepAppend(store.workspaces, row, (w: Workspace) => w.userId == userId);
  }

  /** Deleting the workspace `create` just made restores the store. */
  lemma {:induction false} DeleteUndoesCreate(store: Store, userId: nat, data: Object, candidates: seq<string>)
    requires !Create(store, Some(userId), [], data, candidates).response.Diverges?
    ensures var created := Create(store, Some(userId), [], data, candidates).store;
      Delete(created, Some(userId), [], created.workspaces[|store.workspaces|].workspaceId).store == store
  {
    var created := Create(store, Some(userId), [], data, candidates).store;
    var row := created.workspaces[|store.workspaces|];
    var p := (w: Workspace) => !OwnedWorkspace(w, row.workspaceId, userId);
    forall i | 0 <= i < |store.workspaces|
      ensures p(store.workspaces[i])
    {
      assert store.workspaces[i].workspaceId in WorkspaceIds(store.workspaces);
    }
    KeepEverything(store.workspaces, p);
    KeepAppend(store.workspaces, row, p);
  }

  /** After `edit`, every listed workspace with the edited id shows the
      requested name and services. */
  lemma {:induction false} EditThenList(store: Store, userId: nat, id: string, data: Object)
    ensures var edited := Edit(store, Some(userId), [], id, data).store;
      var shown := List(edited, Some(userId)).response.body.items;
      forall i :: 0 <= i < |shown| && shown[i].fields["id"] == Str(id) ==>
        && ("name" in data ==> shown[i].fields["name"] == data["name"])
        && ("services" in data ==> shown[i].fields["services"] == data["services"])
  {
    EditedThenListed(store, userId, id, data);
  }

  /** The listing half of `EditThenList`, about the edited rows alone. */
  lemma {:induction false} EditedThenListed(store: Store, userId: nat, id: string, data: Object)
    ensures var edited := store.(workspaces := EditedRows(store.workspaces, id, userId, data));
      var shown := List(edited, Some(userId)).response.body.items;
      forall i :: 0 <= i < |shown| && shown[i].fields["id"] == Str(id) ==>
        && ("name" in data ==> shown[i].fields["name"] == data["name"])
        && ("services" in data ==> shown[i].fields["services"] == data["services"])
  {
    var edited := store.(workspaces := EditedRows(store.workspaces, id, userId, data));
    var owned := WorkspacesOf(edited.workspaces, userId);
    var shown := List(edited, Some(userId)).response.body.items;
    forall i | 0 <= i < |shown| && shown[i].fields["id"] == Str(id)
      ensures "name" in data ==> shown[i].fields["name"] == data["name"]
      ensures "services" in data ==> shown[i].fields["services"] == data["services"]
    {
      var row := owned[i];
      assert row in edited.workspaces && row.userId == userId;
      var j :| 0 <= j < |edited.workspaces| && edited.workspaces[j] == row;
      assert OwnedWorkspace(store.workspaces[j], id, userId);
    }
  }
}
